=== FILE: README.md ===
# Schematic tools: converter, viewer scan and generator

A Dafny model of the voxel core of a set of Minecraft WorldEdit schematic
tools. A schematic is a box of `Width × Height × Length` voxels stored as a
flat array of palette indices, voxel `(x, y, z)` at `y*(L*W) + z*W + x`, with
a palette from block-state identifiers (`"minecraft:stone"`,
`"minecraft:oak_log[axis=y]"`) to small integers, a list of block entities,
an optional `Offset` and optional `Metadata`. Three pieces of code read or
write that record:

- the **converter** (`generate_block_list`, `convert_to_command_blocks`)
  lists the non-air blocks at their world positions, and builds a replica of
  the same size in which every such block is a command block whose
  `setblock` command re-places the original block;
- the **viewer scan** (the body of `parse_schematic`) turns a schematic into
  the drawable `(x+ox, y+oy, z+oz, name)` tuples, with block states cut off
  and air hidden;
- the **generator** (`generate_schematic` up to writing the file, and
  `generate_schematic_from_command`) validates and defaults the form fields
  and builds a W×H×L all-zero structure with a one-entry palette and, for a
  command-block type, one command block per voxel.

Modules, one per file:

| file | module | contents |
|---|---|---|
| results.dfy | `Results` | `Option`, `Result` |
| text.dfy | `Text` | Python's `int()`, `int(float())`, `f"{n}"`, `split('[')[0]`, `in`, `replace` on plain strings |
| grid.dfy | `Grid` | positions, the flat index, the Y→Z→X visit order `Order`, the triple loop, and the generic scan `Hits` all three tools share |
| schematic.dfy | `Schematics` | the schematic record, palettes and their inverse lookup, command-block entities |
| converter.dfy | `Converter` | block list, replica, the setblock command and its parser |
| viewer.dfy | `Viewer` | the viewer scan as a function and as the loop the source runs |
| generator.dfy | `Generator` | form fields, the generated structure, the one-command shortcut |
| pipeline.dfy | `Pipeline` | how the tools agree on the same schematic |

The scan is defined once (`Grid.Hits`): it walks `Order(W, H, L)`, reads the
palette index of each voxel and keeps what a per-voxel callback returns. The
block list, the replica's entities and the viewer's tuples are three
callbacks (`Converter.ListEntry`, `Converter.EntityEntry`,
`Viewer.ViewEntry`). The source's loops are there too
(`Grid.EnumerateVoxels`, `Viewer.ScanSchematic`,
`Generator.PlaceCommandBlocks`), each proved equal to the functional
definition.

Behaviour worth noting:

- The converter treats a voxel as air only when its identifier is exactly
  `"minecraft:air"` (converter.py:27 and :74). A state-qualified air such as
  `"minecraft:air[foo=bar]"` is listed and becomes a command block. The viewer
  compares the name with its state cut off (parser.py:37-38) and hides it.
- Air voxels get a fresh air index (1) in the replica, not the index they
  had. Voxels whose index names no palette entry keep 0, which is the
  command-block index, and get no entity (converter.py:58-77).
- The replica does not copy a missing `Offset` through: it raises (see
  Findings). The model's `Converter.Convert` writes the offset it used.

## Model

| member | source | states |
|---|---|---|
| Grid.EnumerateVoxels | src/worldedit_tab/command_block_generator/converter.py:21-24 | the Y-outer, Z-middle, X-inner triple loop visits the voxels in exactly the sequence `Order` |
| Grid.OrderContents | src/worldedit_tab/command_block_generator/converter.py:21-23 | a position is visited iff it lies in the box |
| Grid.OrderIndex | src/worldedit_tab/command_block_generator/converter.py:24 | the k-th visited voxel lies in the box and its flat index `y*(L*W)+z*W+x` is k, so every index read is in `[0, W*H*L)` |
| Grid.OrderStrictlyIncreasing | src/worldedit_tab/command_block_generator/converter.py:21-23 | later visits are strictly greater in (y, z, x) order, so no voxel is visited twice |
| Grid.FlatIndexFormula | src/worldedit_tab/schem_viewer/parser.py:34 | the flat index is `y*(length*width) + z*width + x` with ordinary multiplication |
| Grid.FlatIndexBounds | src/worldedit_tab/command_block_generator/converter.py:24 | the flat index of an in-box voxel lies in `[0, W*H*L)` |
| Grid.HitsComplete | src/worldedit_tab/schem_viewer/parser.py:31-39 | the shared scan keeps every voxel it reaches whose callback accepts it, with the callback's value |
| Grid.HitsSound | src/worldedit_tab/schem_viewer/parser.py:31-39 | everything the shared scan keeps comes from an in-box voxel read inside the array and accepted by the callback |
| Grid.HitsPrefix | src/worldedit_tab/schem_viewer/parser.py:40-43 | stopping the scan earlier keeps a prefix of what a longer scan keeps |
| Grid.HitsTransfer | src/worldedit_tab/command_block_generator/converter.py:61-94 | two callbacks that accept the same voxels keep the same voxels in the same order, with values related by the given map |
| Text.IntToString | src/worldedit_tab/command_block_generator/converter.py:79 | the canonical rendering of `f"{n}"`: '-' exactly for a negative number, then at least one digit with no leading zero (only 0 is written "0"), so no '+', space or '[' |
| Text.ParseInt | src/worldedit_tab/schematic_generator.py:17-19 | `int(s)` accepts exactly a non-empty run of digits, or a '+' or '-' followed by one; the value is the number the digits denote, negated after '-' |
| Text.IntToStringRoundTrip | src/worldedit_tab/command_block_generator/converter.py:79 | `int()` of the decimal rendering of any integer, negative ones included, gives the integer back |
| Text.ParseTruncated | src/worldedit_tab/schematic_generator.py:22-24 | a text that reads as a number is non-empty, and the number keeps the text's sign: at most 0 after '-', at least 0 otherwise |
| Text.ParseTruncatedAccepts | src/worldedit_tab/schematic_generator.py:22-24 | every text of the decimal form (optional sign, digits, '.', digits, a digit on at least one side, as in ".5" and "007.") reads as the digits before '.' under its sign |
| Text.ParseTruncatedRefusesStray | src/worldedit_tab/schematic_generator.py:22-24 | a character other than an ASCII digit, '.' and a leading sign makes the text a ValueError, as `float()` makes "abc", "1,5" and "1-2"; the exponent, `inf`/`nan`, whitespace and underscore forms that Python accepts besides are listed under Left out |
| Text.ParseTruncatedRefusesTwoPoints | src/worldedit_tab/schematic_generator.py:22-24 | a second '.' makes `float()` fail ("1.2.3") |
| Text.ParseTruncatedRefusesNoDigit | src/worldedit_tab/schematic_generator.py:22-24 | a text without a digit makes `float()` fail ("", "-", ".") |
| Text.ParseTruncatedDecimal | src/worldedit_tab/schematic_generator.py:22-24 | the digits after '.' are dropped: `m.f` reads as m for every natural m and digit string f |
| Text.ParseTruncatedNegativeDecimal | src/worldedit_tab/schematic_generator.py:22-24 | the same after '-': `-m.f` reads as -m, so truncation is toward zero and not downward |
| Text.ParseTruncatedExtendsParseInt | src/worldedit_tab/schematic_generator.py:22-24 | every text `int(s)` accepts is in the decimal form `float()` reads, and its exact truncation is `int(s)`'s value |
| Text.StripState | src/worldedit_tab/schem_viewer/parser.py:37 | the name is the identifier cut at its first '[': a '['-free prefix, followed in the identifier by '[' when shorter, and the whole identifier when it has no '[' |
| Text.TextBeforeOf | src/worldedit_tab/schem_viewer/parser.py:37 | the first field of `head + sep + rest` is `head` when `head` has no `sep` |
| Text.Contains | src/worldedit_tab/schematic_generator.py:43 | `pat in s` holds iff `pat` occurs in `s` at some position |
| Text.Replace | src/worldedit_tab/schematic_generator.py:16 | `s.replace(pat, rep)` leaves a text in which `pat` does not occur unchanged |
| Text.ReplaceKeptPrefix | src/worldedit_tab/schematic_generator.py:16 | the text before the first position where the pattern starts passes through `replace` unchanged |
| Text.ReplaceFirst | src/worldedit_tab/schematic_generator.py:16 | the leftmost occurrence is replaced first: the text before it is kept, it becomes the replacement, and the rest is replaced in turn; with `Replace`'s own clause this fixes `replace` on every input |
| Text.ReplacePlainPrefix | src/worldedit_tab/schematic_generator.py:16 | a prefix that never holds the pattern's first character passes through `replace` unchanged |
| Text.ReplaceAtPair | src/worldedit_tab/schematic_generator.py:16 | in `a + "__" + b` where `a` holds no "__" and does not end in '_', the pair becomes ':' and the rest is replaced in turn ("a___b" becomes "a:_b") |
| Text.ReplaceDoubleUnderscore | src/worldedit_tab/schematic_generator.py:16 | after replacing every "__" by ":" no "__" is left, and the result is empty only for empty input |
| Schematics.Resolve | src/worldedit_tab/command_block_generator/converter.py:19-26 | the inverse palette finds an identifier exactly for indices the palette holds, and that identifier maps back to the index |
| Schematics.ResolveInverts | src/worldedit_tab/command_block_generator/converter.py:19 | looking up the index of a palette key finds that key |
| Schematics.ZerosCoverVoxels | src/worldedit_tab/command_block_generator/converter.py:58 | the zero array `[0]*(W*H*L)` covers every visited index, and has exactly W*H*L entries for positive dimensions |
| Schematics.CommandBlockAt | src/worldedit_tab/command_block_generator/converter.py:80-93 | an appended entity carries the command-block id, name and fixed flag set, the given local position and the given command |
| Converter.Named | src/worldedit_tab/command_block_generator/converter.py:26-27 | an index names a block iff the palette holds it under a non-empty identifier |
| Converter.Local | src/worldedit_tab/command_block_generator/converter.py:28-30 | the local position recovered from an absolute one maps back to it through anchor + offset + local |
| Converter.GenerateBlockList | src/worldedit_tab/command_block_generator/converter.py:8-32 | the block list fails exactly when `BlockData` is shorter than the box, with the index the loop reads first past its end, and otherwise has at most W*H*L lines |
| Converter.ShortDataFailsAtItsEnd | src/worldedit_tab/command_block_generator/converter.py:21-25 | with short data, the failing read is the visit whose flat index equals the array length, after visits that all read inside it |
| Converter.BlockListSpec | src/worldedit_tab/command_block_generator/converter.py:21-31 | the block list holds exactly the in-box voxels whose identifier is non-empty and not exactly "minecraft:air", each once, at anchor + offset + local, in strictly increasing (y, z, x) order |
| Converter.SetblockCommand | src/worldedit_tab/command_block_generator/converter.py:79 | a `setblock X Y Z block` command reads back as exactly that position and identifier, whatever the identifier holds |
| Converter.ReplicaPalette | src/worldedit_tab/command_block_generator/converter.py:47-56 | the replica palette has the command-block state at 0, air at 1 iff the source palette has air, nothing else, and 1 or 2 entries accordingly |
| Converter.Paint | src/worldedit_tab/command_block_generator/converter.py:58-77 | the replica's block array keeps one slot per voxel of the box while the loop writes into it |
| Converter.PaintSlots | src/worldedit_tab/command_block_generator/converter.py:58-77 | after n visits a slot holds the air index iff it was visited and resolves to exactly "minecraft:air", and the command-block index otherwise |
| Converter.Convert | src/worldedit_tab/command_block_generator/converter.py:35-108 | the replica fails iff data is short or Version or DataVersion is missing; otherwise it keeps version, data version and dimensions, writes the offset used and the metadata or an empty one, and sets PaletteMax to the palette size |
| Converter.ConvertAsWritten | src/worldedit_tab/command_block_generator/converter.py:96-108 | the function as written fails also when Offset is missing |
| Converter.ConvertAgreesWithAsWritten | src/worldedit_tab/command_block_generator/converter.py:42-106 | whenever the source has an Offset, the corrected and the as-written conversion give the same result |
| Converter.MissingOffsetRaises | src/worldedit_tab/command_block_generator/converter.py:42-106 | on readable data without an Offset the block list and commands use (0, 0, 0), yet the as-written conversion raises on the Offset key |
| Converter.MissingOffsetCounterexample | src/worldedit_tab/command_block_generator/converter.py:106 | a 1×1×1 stone schematic without Offset lists fine but makes the as-written conversion raise |
| Converter.ConvertBlockData | src/worldedit_tab/command_block_generator/converter.py:58-77 | each in-box voxel of the replica holds the air index iff its source identifier is exactly "minecraft:air", the command-block index otherwise, and slots past the box hold 0 |
| Converter.ConvertEntities | src/worldedit_tab/command_block_generator/converter.py:61-94 | one command block per non-empty, non-air voxel, at its local position, re-placing its identifier at anchor + offset + local, each once, in (y, z, x) order |
| Converter.EntitiesMirrorLines | src/worldedit_tab/command_block_generator/converter.py:61-94 | the entity scan keeps the same voxels as the block-list scan, in the same order, each entity running the setblock command of the matching line |
| Converter.ConvertReplaysBlockList | src/worldedit_tab/command_block_generator/converter.py:70-94 | the replica's commands, in order, place exactly the blocks of the block list, each from the local position of the block it places |
| Converter.ConvertCommandsMatchFootprint | src/worldedit_tab/command_block_generator/converter.py:70-106 | each command targets anchor + written offset + the command block's own position |
| Converter.AllAirConvertsToNothing | src/worldedit_tab/command_block_generator/converter.py:25-31 | a palette of nothing but air lists no blocks and yields no command blocks |
| Viewer.BlockName | src/worldedit_tab/schem_viewer/parser.py:36-37 | an unknown index reads as "minecraft:air"; a known one as its identifier cut at the first '[', the whole identifier when it has no state |
| Viewer.ScanLength | src/worldedit_tab/schem_viewer/parser.py:29-43 | the scan visits every voxel exactly when the data covers the box, else stops at the data's end |
| Viewer.ParseSchematic | src/worldedit_tab/schem_viewer/parser.py:29-43 | at most one tuple per voxel the scan visits |
| Viewer.ViewerSound | src/worldedit_tab/schem_viewer/parser.py:31-39 | every drawn tuple is an in-box voxel plus the offset, under that voxel's state-free name, which is not "minecraft:air" |
| Viewer.ViewerOrdered | src/worldedit_tab/schem_viewer/parser.py:31-39 | drawn tuples come in strictly increasing (y, z, x) order, so no position is drawn twice |
| Viewer.ViewerComplete | src/worldedit_tab/schem_viewer/parser.py:31-39 | every voxel the scan reaches whose name is not air is drawn at voxel + offset |
| Viewer.AirWithStateIsHidden | src/worldedit_tab/schem_viewer/parser.py:37-38 | an identifier "minecraft:air[...]" reads as air and is never drawn |
| Viewer.ViewerKeepsPrefix | src/worldedit_tab/schem_viewer/parser.py:40-43 | extending `BlockData` only extends the drawn tuples: a scan cut short returns a prefix of the full result |
| Viewer.DrawnStep | src/worldedit_tab/schem_viewer/parser.py:34-39 | one visit appends that voxel's tuple when its name is not air, and nothing otherwise |
| Viewer.ScanRow | src/worldedit_tab/schem_viewer/parser.py:33-39 | the X loop either finishes its row or stops at the data's end with the tuples drawn so far |
| Viewer.ScanLayer | src/worldedit_tab/schem_viewer/parser.py:32-39 | the Z loop either finishes its layer or stops at the data's end with the tuples drawn so far |
| Viewer.ScanSchematic | src/worldedit_tab/schem_viewer/parser.py:31-43 | the source's triple loop, cut short by a failing read, returns exactly the scan's tuples |
| Generator.DefaultBlockHasNoDoubleUnderscore | src/worldedit_tab/schematic_generator.py:16 | the default block type has no "__" |
| Generator.BlockType | src/worldedit_tab/schematic_generator.py:16 | the block type is never empty and holds no "__"; an empty field gives the command block, a field without "__" is kept, and in any other field the leftmost "__" becomes ':' with the rest replaced in turn |
| Generator.BlockTypeColon | src/worldedit_tab/schematic_generator.py:16 | the field's first "__" reads as ':' ("minecraft__stone" is "minecraft:stone", "my_mod__ruby" is "my_mod:ruby"), and the rest of the field is replaced in turn |
| Generator.Dimension | src/worldedit_tab/schematic_generator.py:17-19 | an empty dimension is 1; otherwise it parses iff `int()` accepts the text, and the error names the field |
| Generator.DimensionOfNumber | src/worldedit_tab/schematic_generator.py:17-19 | typing a number into a dimension field gives that number |
| Generator.Coordinate | src/worldedit_tab/schematic_generator.py:22-24 | an empty coordinate is 0; a non-empty one is accepted iff it is in the decimal form and its integer part is below 2^1024 - 2^970 in magnitude; a text outside the form is a ValueError, one past the float range an OverflowError; the model's error carries the field's text, which Python's OverflowError message ("cannot convert float infinity to integer") does not |
| Generator.CoordinateOfNumber | src/worldedit_tab/schematic_generator.py:22-24 | typing an integer of magnitude at most 2^53, where every integer is a binary64 value, gives that integer |
| Generator.CoordinateOverflows | src/worldedit_tab/schematic_generator.py:22-24 | typing an integer of magnitude at least 2^1024 - 2^970 is refused with an OverflowError, since `float()` of it is infinite |
| Generator.CoordinateTruncates | src/worldedit_tab/schematic_generator.py:22-24 | for integer parts below 2^49 and fractions not starting with '9', where binary64 rounding cannot reach the next integer, `m.f` reads as m and `-m.f` as -m, truncating toward zero |
| Generator.CommandText | src/worldedit_tab/schematic_generator.py:26 | the command is the field's text when that is non-empty and "say Hello from command block" when it is empty |
| Generator.PaletteKey | src/worldedit_tab/schematic_generator.py:32 | the palette key always carries a state, names the same block as the type, and is the type itself or the type plus the default state |
| Generator.CommandBlocks | src/worldedit_tab/schematic_generator.py:43-62 | one entity per voxel of the box |
| Generator.CommandBlocksCoverBox | src/worldedit_tab/schematic_generator.py:43-62 | the entities are command blocks running the command, in the box, in strictly increasing (y, z, x) order, the one for voxel v at its flat index |
| Generator.PlaceCommandBlocks | src/worldedit_tab/schematic_generator.py:44-62 | the source's triple loop appends exactly those entities |
| Generator.GenerateSchematic | src/worldedit_tab/schematic_generator.py:14-83 | generation succeeds iff every field parses, every coordinate stays inside the float range, and every dimension is at least 1; the result has version 2, data version 4550, PaletteMax 1, the typed dimensions, the one-key palette, W*H*L zeros, offset (0, 0, 0) and zero WorldEdit offsets |
| Generator.GenerateErrors | src/worldedit_tab/schematic_generator.py:16-29 | the error is the first rejected field in reading order, a coordinate's being a ValueError or an OverflowError as `Coordinate` says, and the dimension check only fires when every field parses |
| Generator.GeneratedEntities | src/worldedit_tab/schematic_generator.py:43-62 | a type containing "command_block" gets exactly `CommandBlocks`, one command block per voxel in Y→Z→X order, each running the command, covering the box; any other type gets none |
| Generator.CoordinatesDoNotMatter | src/worldedit_tab/schematic_generator.py:21-24 | the player coordinates only have to parse: changing them changes nothing in the result |
| Generator.EmptyFormDefaults | src/worldedit_tab/schematic_generator.py:16-36 | an all-empty form gives a 1×1×1 schematic keyed by the command block with its default state |
| Generator.DefaultBlockIsKept | src/worldedit_tab/schematic_generator.py:116 | the block type set by the one-command shortcut passes through unchanged |
| Generator.DefaultBlockIsCommandBlock | src/worldedit_tab/schematic_generator.py:43 | that block type contains "command_block" |
| Generator.DefaultBlockKey | src/worldedit_tab/schematic_generator.py:32 | its palette key is the block plus the default state |
| Generator.CommandFormFields | src/worldedit_tab/schematic_generator.py:117-122 | the fields "1" and "0" the shortcut fills parse as 1 and 0 |
| Generator.UnitStructure | src/worldedit_tab/schematic_generator.py:34-62 | a 1×1×1 command-block structure has one palette entry, one zero and one command block at the origin |
| Generator.FromCommand | src/worldedit_tab/schematic_generator.py:115-123 | the shortcut's form names the command block, reads as 1 in every dimension and 0 in every coordinate, and carries the command |
| Generator.FromCommandIsOneBlock | src/worldedit_tab/schematic_generator.py:115-124 | a command becomes a 1×1×1 schematic holding one command block at the origin that runs it, or the greeting when it is empty |
| Pipeline.EntriesAgree | src/worldedit_tab/schem_viewer/parser.py:36-39 | when no palette key is empty and only "minecraft:air" names air, a voxel is listed by the converter iff the viewer draws it, under the same identifier with its state cut off |
| Pipeline.ViewerMatchesBlockList | src/worldedit_tab/schem_viewer/parser.py:31-39 | when no palette key is empty and only "minecraft:air" names air, the viewer draws the block list anchored at the origin, tuple for line, in the same order |
| Pipeline.GeneratedConverts | src/worldedit_tab/command_block_generator/converter.py:35-108 | every generated schematic converts, and the as-written conversion agrees on it |
| Pipeline.GeneratedIsUniform | src/worldedit_tab/schematic_generator.py:32-76 | a generated schematic holds the palette key at index 0 in every voxel, covers its box and sits at the origin |
| Pipeline.UniformIndex | src/worldedit_tab/schematic_generator.py:34-39 | every voxel of such a schematic resolves to its one key |
| Pipeline.UniformView | src/worldedit_tab/schem_viewer/parser.py:31-39 | the viewer draws such a schematic as its whole box under the key's name, or as nothing when that name is air |
| Pipeline.UniformBlockList | src/worldedit_tab/command_block_generator/converter.py:21-31 | the converter lists every voxel of such a schematic under its stated key |
| Pipeline.GeneratedView | src/worldedit_tab/schem_viewer/parser.py:31-39 | the viewer draws a generated schematic as its whole box filled with the block type's name, or as nothing when that name is air |
| Pipeline.GeneratedBlockList | src/worldedit_tab/command_block_generator/converter.py:21-31 | the converter lists every voxel of a generated schematic under the palette key, at anchor + position |

## Left out

- File loading and saving: the tag-tree (NBT) encoding, gzip, the save dialog, the loader's diagnostics and the viewer's existence check are I/O; the schematic is the decoded record.
- The wall transform `convert_to_command_block_wall`: it is called by the converter's window but its source is not part of this model.
- The windows (`gui.py`, `modify_laser_gui.py`), the renderer and textures (`viewer.py`, `textures.py`) and the laser modifier (`modifier.py`): widgets, OpenGL and floating-point coordinate editing.
- Fractional anchors: anchors are integer positions, so `int(px + ox + x)` is exact; the block list is a sequence of (position, identifier) pairs rather than its formatted `Block at X Y Z: id` text.
- Duplicate palette indices: palettes are injective, so the inverse palette does not depend on dictionary order.
- NBT value widths: dimensions are unbounded integers, and `Short`/`Byte` overflow on writing is not modelled.
- Missing `Width`, `Height`, `Length`, `Palette` or `BlockData`, a non-integer tag, or an `Offset` without three entries: the record always has them, so the corresponding KeyError/ValueError paths are not modelled.
- Metadata is a map to integers; the converter copies it whole, which is all that is stated about it.
- Text.ParseTruncated: models `int(float(s))` only on the plain decimal form (sign, digits, one '.'); Python's exponents, `inf`/`nan`, surrounding whitespace, digit underscores and non-ASCII decimal digits (`float("١")` is 1.0) are rejected here although Python accepts some of them.
- Text.ParseTruncated: truncates the exact decimal value, while Python's `float()` first rounds to the nearest binary64 value. The two differ where that rounding changes the integer part: integers beyond 2^53 in magnitude round to a neighbour (9007199254740993 reads as 9007199254740992), and a fraction within half a unit in the last place of the next integer rounds up to it (0.99999999999999999 reads as 1). `Generator.Coordinate` inherits this; overflow to infinity, decided by the integer part alone, is modelled.
- Generator.CoordinateTruncates: promised only for integer parts below 2^49 and fractions whose first digit is not '9'; elsewhere `float()` may round to the next integer (0.99999999999999999 reads as 1) or to a neighbouring even integer (9007199254740993.0 reads as 9007199254740992), which the model does not.
- Generator.CoordinateOfNumber: promised only up to 2^53 in magnitude, where every integer is a binary64 value; beyond that Python rounds, which the model does not.
- Text.ParseInt: models `int(s)` on an optional sign followed by ASCII digits; surrounding whitespace, digit underscores and non-ASCII decimal digits, which Python accepts, are rejected, and the limit on the number of digits that recent Python versions impose on `int(s)` (a ValueError past 4300 digits by default) is not modelled.
- Converter.MissingOffsetCounterexample: states that the concrete schematic lists without error and that the as-written conversion raises, not the contents of the list.
- The one-command shortcut writes its fields into the window before generating; `Generator.FromCommand` builds the form directly.

## Findings

| source | as written | input that shows it | evidently intended | confidence | as-written member | corrected member |
|---|---|---|---|---|---|---|
| src/worldedit_tab/command_block_generator/converter.py:106 | the replica copies `data["Offset"]`, although line 42 defaults a missing Offset to (0, 0, 0) for the commands | a readable schematic with Version and DataVersion but no Offset tag, e.g. 1×1×1 stone | write the offset the commands were computed with, (0, 0, 0) when absent | medium, not executed | Converter.MissingOffsetCounterexample | Converter.Convert |

=== FILE: converter.dfy ===
/** The command-block converter: the block list of a schematic, and its
    replica in which every placed block becomes a command block that
    re-places the original block with `setblock`. */
module Converter {
  import opened Results
  import opened Grid
  import opened Text
  import opened Schematics

  /** Palette indices of the replica. */
  const COMMAND_BLOCK_INDEX := 0
  const AIR_INDEX := 1

  /** One entry of the block list: absolute position and identifier. */
  datatype BlockLine = BlockLine(pos: Vec3, block: string)

  /** What the converter raises: an IndexError when `BlockData` is shorter
      than the box, a KeyError for a missing required tag. */
  datatype ConvertError = IndexOutOfRange(index: nat) | MissingKey(key: string)

  /** The identifier an index stands for, when it stands for a non-empty
      one: the truthiness test on `inv_palette.get(state_id)`. */
  function Named(p: Palette, index: int): (b: Option<string>)
    ensures b.Some? <==> index in p.Values && Resolve(p, index).value != ""
    ensures b.Some? ==> b == Resolve(p, index)
  {
    var b := Resolve(p, index);
    if b.Some? && b.value != "" then b else None
  }

  /** Where a local voxel lands in the world: anchor + offset + local. */
  function Absolute(s: Schematic, anchor: Vec3, v: Vec3): Vec3 {
    anchor.Plus(s.OffsetOrOrigin()).Plus(v)
  }

  /** The local voxel an absolute position came from. */
  function Local(s: Schematic, anchor: Vec3, p: Vec3): (v: Vec3)
    ensures Absolute(s, anchor, v) == p
  {
    p.Minus(anchor.Plus(s.OffsetOrOrigin()))
  }

  /** The block list's treatment of one voxel: listed iff its index names a
      non-empty identifier other than exactly "minecraft:air". */
  function ListEntry(s: Schematic, anchor: Vec3): (Vec3, int) -> Option<BlockLine> {
    (v: Vec3, index: int) =>
      var b := Named(s.palette, index);
      if b.Some? && b.value != AIR_BLOCK then Some(BlockLine(Absolute(s, anchor, v), b.value)) else None
  }

  /** `generate_block_list`: the non-air voxels, in Y→Z→X order, with their
      absolute positions. Reading past the end of `BlockData` raises. */
  function GenerateBlockList(s: Schematic, anchor: Vec3): (r: Result<seq<BlockLine>, ConvertError>)
    ensures r.Err? <==> !s.Readable()
    ensures r.Err? ==> r.error == IndexOutOfRange(|s.blockData|)
    ensures r.Ok? ==> |r.value| <= s.Voxels()
  {
    if !s.Readable() then Err(IndexOutOfRange(|s.blockData|))
    else Ok(Values(LineHits(s, anchor)))
  }

  /** When `BlockData` is short, the scan raises at the visit whose flat
      index is `|BlockData|`: every earlier visit read inside the array. */
  lemma ShortDataFailsAtItsEnd(s: Schematic)
    requires !s.Readable()
    ensures var k := |s.blockData|;
      var order := Order(s.width, s.height, s.length);
      && FlatIndex(order[k], s.width, s.length) == k
      && forall j | 0 <= j < k :: FlatIndex(order[j], s.width, s.length) < k
  {
    var order := Order(s.width, s.height, s.length);
    OrderIndex(s.width, s.height, s.length, |s.blockData|);
    forall j | 0 <= j < |s.blockData|
      ensures FlatIndex(order[j], s.width, s.length) < |s.blockData|
    {
      OrderIndex(s.width, s.height, s.length, j);
    }
  }

  /** The scan that produces the block list. */
  function LineHits(s: Schematic, anchor: Vec3): seq<Hit<BlockLine>>
    requires s.Readable()
  {
    Hits(s.width, s.height, s.length, s.blockData, s.Voxels(), ListEntry(s, anchor))
  }

  /** The `i`-th line comes from the voxel the scan kept, an in-box voxel
      whose identifier is non-empty and not air, at its absolute position. */
  lemma LineFrom(s: Schematic, anchor: Vec3, i: nat)
    requires s.Readable()
    requires i < |LineHits(s, anchor)|
    ensures var hit := LineHits(s, anchor)[i];
      && InBounds(hit.at, s.width, s.height, s.length)
      && hit.value.pos == Absolute(s, anchor, hit.at)
      && Local(s, anchor, hit.value.pos) == hit.at
      && Named(s.palette, s.IndexAt(hit.at)) == Some(hit.value.block)
      && hit.value.block != AIR_BLOCK
  {
    var w, h, l, data, n, f := s.width, s.height, s.length, s.blockData, s.Voxels(), ListEntry(s, anchor);
    HitAt(w, h, l, data, n, f, i);
    var hit := LineHits(s, anchor)[i];
    assert f(hit.at, data[FlatIndex(hit.at, w, l)]) == Some(hit.value);
  }

  /** Every line is a non-air voxel of the box at anchor + offset + local. */
  lemma LinesSound(s: Schematic, anchor: Vec3)
    requires s.Readable()
    ensures var r := Values(LineHits(s, anchor));
      forall i | 0 <= i < |r| ::
        var v := Local(s, anchor, r[i].pos);
        && InBounds(v, s.width, s.height, s.length)
        && Named(s.palette, s.IndexAt(v)) == Some(r[i].block)
        && r[i].block != AIR_BLOCK
  {
    forall i | 0 <= i < |LineHits(s, anchor)| {
      LineFrom(s, anchor, i);
    }
  }

  /** Lines come in strictly increasing (y, z, x) order of their positions. */
  lemma LinesOrdered(s: Schematic, anchor: Vec3)
    requires s.Readable()
    ensures var r := Values(LineHits(s, anchor));
      forall i, j | 0 <= i < j < |r| :: LexLess(r[i].pos, r[j].pos)
  {
    var w, h, l, data, n, f := s.width, s.height, s.length, s.blockData, s.Voxels(), ListEntry(s, anchor);
    var hits := LineHits(s, anchor);
    assert hits == Hits(w, h, l, data, n, f);
    HitsOrdered(w, h, l, data, n, f);
    forall i, j | 0 <= i < j < |hits|
      ensures LexLess(hits[i].value.pos, hits[j].value.pos)
    {
      LineFrom(s, anchor, i);
      LineFrom(s, anchor, j);
      assert LexLess(hits[i].at, hits[j].at);
    }
  }

  /** Every non-air voxel of the box has its line. */
  lemma LinesComplete(s: Schematic, anchor: Vec3)
    requires s.Readable()
    ensures var r := Values(LineHits(s, anchor));
      forall v | InBounds(v, s.width, s.height, s.length) &&
                 Named(s.palette, s.IndexAt(v)).Some? && Named(s.palette, s.IndexAt(v)).value != AIR_BLOCK ::
        BlockLine(Absolute(s, anchor, v), Named(s.palette, s.IndexAt(v)).value) in r
  {
    var w, h, l, data, n, f := s.width, s.height, s.length, s.blockData, s.Voxels(), ListEntry(s, anchor);
    var hits := LineHits(s, anchor);
    forall v | InBounds(v, w, h, l) && Named(s.palette, s.IndexAt(v)).Some? && Named(s.palette, s.IndexAt(v)).value != AIR_BLOCK
      ensures BlockLine(Absolute(s, anchor, v), Named(s.palette, s.IndexAt(v)).value) in Values(hits)
    {
      FlatIndexBounds(v, w, h, l);
      HitsComplete(w, h, l, data, n, f, v);
      var i :| 0 <= i < |hits| && hits[i] == Hit(v, f(v, data[FlatIndex(v, w, l)]).value);
      assert Values(hits)[i] == hits[i].value;
    }
  }

  /** The block list holds exactly the listed voxels, each once, at
      anchor + offset + local position, in strictly increasing (y, z, x)
      order. */
  lemma BlockListSpec(s: Schematic, anchor: Vec3)
    requires s.Readable()
    ensures var r := GenerateBlockList(s, anchor).value;
      && (forall i | 0 <= i < |r| ::
            var v := Local(s, anchor, r[i].pos);
            && InBounds(v, s.width, s.height, s.length)
            && Named(s.palette, s.IndexAt(v)) == Some(r[i].block)
            && r[i].block != AIR_BLOCK)
      && (forall i, j | 0 <= i < j < |r| :: LexLess(r[i].pos, r[j].pos))
      && (forall v | InBounds(v, s.width, s.height, s.length) &&
                     Named(s.palette, s.IndexAt(v)).Some? && Named(s.palette, s.IndexAt(v)).value != AIR_BLOCK ::
            BlockLine(Absolute(s, anchor, v), Named(s.palette, s.IndexAt(v)).value) in r)
  {
    assert GenerateBlockList(s, anchor).value == Values(LineHits(s, anchor));
    LinesSound(s, anchor);
    LinesOrdered(s, anchor);
    LinesComplete(s, anchor);
  }

  /** Splits off the text before the first space. */
  function SplitField(s: string): (r: Option<(string, string)>)
    ensures r.Some? ==> ' ' !in r.value.0 && s == r.value.0 + " " + r.value.1
  {
    var head := TextBefore(s, ' ');
    if |head| < |s| then
      assert s == head + " " + s[|head| + 1..];
      Some((head, s[|head| + 1..]))
    else None
  }

  lemma SplitFieldOf(head: string, rest: string)
    requires ' ' !in head
    ensures SplitField(head + " " + rest) == Some((head, rest))
  {
    TextBeforeOf(head, ' ', rest);
    var s := head + " " + rest;
    assert s[|head| + 1..] == rest;
  }

  /** Reads a `setblock` command back into its position and identifier. */
  function ParseSetblock(command: string): Option<(Vec3, string)> {
    var keyword := "setblock ";
    if |command| < |keyword| || command[..|keyword|] != keyword then None
    else
      match SplitField(command[|keyword|..])
      case None => None
      case Some((xs, rest)) =>
        match SplitField(rest)
        case None => None
        case Some((ys, rest')) =>
          match SplitField(rest')
          case None => None
          case Some((zs, block)) =>
            match (ParseInt(xs), ParseInt(ys), ParseInt(zs))
            case (Some(x), Some(y), Some(z)) => Some((Vec3(x, y, z), block))
            case _ => None
  }

  /** The command a replica block runs: `setblock X Y Z <identifier>`. It
      names exactly the position and identifier it was built from, whatever
      the identifier contains. */
  function SetblockCommand(p: Vec3, block: string): (command: string)
    ensures ParseSetblock(command) == Some((p, block))
  {
    var xs, ys, zs := IntToString(p.x), IntToString(p.y), IntToString(p.z);
    var command := "setblock " + (xs + " " + (ys + " " + (zs + " " + block)));
    assert command[|"setblock "|..] == xs + " " + (ys + " " + (zs + " " + block));
    SplitFieldOf(xs, ys + " " + (zs + " " + block));
    SplitFieldOf(ys, zs + " " + block);
    SplitFieldOf(zs, block);
    IntToStringRoundTrip(p.x);
    IntToStringRoundTrip(p.y);
    IntToStringRoundTrip(p.z);
    command
  }

  /** The entity the conversion loop appends for one voxel: none for an
      unresolvable or empty identifier or for air, otherwise a command block
      at the local position whose command re-places the identifier at the
      absolute position. */
  function EntityEntry(s: Schematic, anchor: Vec3): (Vec3, int) -> Option<BlockEntity> {
    (v: Vec3, index: int) =>
      var b := Named(s.palette, index);
      if b.None? then None
      else if b.value == AIR_BLOCK && AIR_BLOCK in s.palette then None
      else Some(CommandBlockAt(v, SetblockCommand(Absolute(s, anchor, v), b.value)))
  }

  /** The replica's block array after the first `n` visits: zeros, with the
      air index written where the source holds exactly "minecraft:air" and
      the command-block index written where it holds another identifier. */
  function Paint(s: Schematic, n: nat): (data: seq<int>)
    requires n <= s.Voxels() && n <= |s.blockData|
    ensures |data| == ZerosLength(s.width, s.height, s.length)
    decreases n
  {
    if n == 0 then seq(ZerosLength(s.width, s.height, s.length), _ => 0)
    else
      var previous := Paint(s, n - 1);
      var v := Order(s.width, s.height, s.length)[n - 1];
      OrderIndex(s.width, s.height, s.length, n - 1);
      ZerosCoverVoxels(s.width, s.height, s.length);
      var k := FlatIndex(v, s.width, s.length);
      var b := Named(s.palette, s.blockData[k]);
      if b.None? then previous
      else if b.value == AIR_BLOCK && AIR_BLOCK in s.palette then previous[k := AIR_INDEX]
      else previous[k := COMMAND_BLOCK_INDEX]
  }

  /** After `n` visits, array slot `k` holds the air index iff `k` was
      visited and the source index there resolves to exactly
      "minecraft:air"; every other slot holds the command-block index. */
  lemma {:induction false} PaintSlots(s: Schematic, n: nat, k: nat)
    requires n <= s.Voxels() && n <= |s.blockData|
    requires k < ZerosLength(s.width, s.height, s.length)
    ensures Paint(s, n)[k] ==
      if k < n && Resolve(s.palette, s.blockData[k]) == Some(AIR_BLOCK) then AIR_INDEX else COMMAND_BLOCK_INDEX
    decreases n
  {
    if n > 0 {
      PaintSlots(s, n - 1, k);
      OrderIndex(s.width, s.height, s.length, n - 1);
    }
  }

  /** The replica's palette: the command-block state, plus air when the
      source palette has an air entry. */
  function ReplicaPalette(s: Schematic): (p: Palette)
    ensures COMMAND_BLOCK_STATE in p && p[COMMAND_BLOCK_STATE] == COMMAND_BLOCK_INDEX
    ensures AIR_BLOCK in p <==> AIR_BLOCK in s.palette
    ensures AIR_BLOCK in p ==> p[AIR_BLOCK] == AIR_INDEX
    ensures p.Keys <= {COMMAND_BLOCK_STATE, AIR_BLOCK}
    ensures |p| == if AIR_BLOCK in s.palette then 2 else 1
  {
    if AIR_BLOCK in s.palette then
      var p := map[COMMAND_BLOCK_STATE := COMMAND_BLOCK_INDEX, AIR_BLOCK := AIR_INDEX];
      assert p.Keys == {COMMAND_BLOCK_STATE, AIR_BLOCK};
      p
    else
      map[COMMAND_BLOCK_STATE := COMMAND_BLOCK_INDEX]
  }

  /** The replica record, given the offset it is written with. */
  function Replica(s: Schematic, anchor: Vec3, offset: Vec3): Schematic
    requires s.Readable()
  {
    var palette := ReplicaPalette(s);
    Schematic(
      s.version, s.dataVersion, s.width, s.height, s.length,
      Some(|palette|), palette,
      Paint(s, s.Voxels()),
      Values(EntityHits(s, anchor)),
      Some(offset),
      Some(s.metadata.GetOr(map[])))
  }

  /** `convert_to_command_blocks` as written: it defaults a missing Offset
      for the commands, but copies `data["Offset"]` into the result, which
      raises a KeyError when the tag is absent. */
  function ConvertAsWritten(s: Schematic, anchor: Vec3): (r: Result<Schematic, ConvertError>)
    ensures r.Err? <==> !s.Readable() || s.version.None? || s.dataVersion.None? || s.offset.None?
  {
    if !s.Readable() then Err(IndexOutOfRange(|s.blockData|))
    else if s.version.None? then Err(MissingKey("Version"))
    else if s.dataVersion.None? then Err(MissingKey("DataVersion"))
    else if s.offset.None? then Err(MissingKey("Offset"))
    else Ok(Replica(s, anchor, s.offset.value))
  }

  /** `convert_to_command_blocks`, writing the offset it used for the
      commands: the source's Offset, or (0, 0, 0) when absent. */
  function Convert(s: Schematic, anchor: Vec3): (r: Result<Schematic, ConvertError>)
    ensures r.Err? <==> !s.Readable() || s.version.None? || s.dataVersion.None?
    ensures !s.Readable() ==> r == Err(IndexOutOfRange(|s.blockData|))
    ensures r.Ok? ==>
      var o := r.value;
      && o.version == s.version && o.dataVersion == s.dataVersion
      && o.width == s.width && o.height == s.height && o.length == s.length
      && o.offset == Some(s.OffsetOrOrigin())
      && o.metadata == (if s.metadata.Some? then s.metadata else Some(map[]))
      && COMMAND_BLOCK_STATE in o.palette && o.palette[COMMAND_BLOCK_STATE] == COMMAND_BLOCK_INDEX
      && (AIR_BLOCK in o.palette <==> AIR_BLOCK in s.palette)
      && (AIR_BLOCK in o.palette ==> o.palette[AIR_BLOCK] == AIR_INDEX)
      && o.palette.Keys <= {COMMAND_BLOCK_STATE, AIR_BLOCK}
      && o.paletteMax == Some(|o.palette|)
      && |o.blockData| == ZerosLength(s.width, s.height, s.length)
      && |o.blockEntities| <= s.Voxels()
  {
    if !s.Readable() then Err(IndexOutOfRange(|s.blockData|))
    else if s.version.None? then Err(MissingKey("Version"))
    else if s.dataVersion.None? then Err(MissingKey("DataVersion"))
    else Ok(Replica(s, anchor, s.OffsetOrOrigin()))
  }

  /** Both versions agree whenever the source has an Offset. */
  lemma ConvertAgreesWithAsWritten(s: Schematic, anchor: Vec3)
    requires s.offset.Some?
    ensures ConvertAsWritten(s, anchor) == Convert(s, anchor)
  {
  }

  /** Without an Offset tag the block list and the commands use (0, 0, 0),
      but the conversion as written raises a KeyError on the Offset lookup. */
  lemma MissingOffsetRaises(s: Schematic, anchor: Vec3)
    requires s.Readable() && s.version.Some? && s.dataVersion.Some? && s.offset.None?
    ensures GenerateBlockList(s, anchor).Ok?
    ensures ConvertAsWritten(s, anchor) == Err(MissingKey("Offset"))
    ensures Convert(s, anchor).Ok? && Convert(s, anchor).value.offset == Some(Origin)
  {
  }

  /** A concrete such schematic: one stone block, Version 2, DataVersion
      3465, no Offset. */
  lemma MissingOffsetCounterexample(s: Schematic, anchor: Vec3)
    requires s == Schematic(Some(2), Some(3465), 1, 1, 1, None, map["minecraft:stone" := 0], [0], [], None, None)
    ensures GenerateBlockList(s, anchor).Ok?
    ensures ConvertAsWritten(s, anchor) == Err(MissingKey("Offset"))
  {
  }

  /** The replica's block array, voxel by voxel: the air index exactly where
      the source holds "minecraft:air", the command-block index elsewhere,
      including at unresolvable indices and past the box. */
  lemma ConvertBlockData(s: Schematic, anchor: Vec3)
    requires Convert(s, anchor).Ok?
    ensures var o := Convert(s, anchor).value;
      && (forall v | InBounds(v, s.width, s.height, s.length) ::
            0 <= FlatIndex(v, s.width, s.length) < |o.blockData| &&
            o.blockData[FlatIndex(v, s.width, s.length)] ==
              if Resolve(s.palette, s.IndexAt(v)) == Some(AIR_BLOCK) then AIR_INDEX else COMMAND_BLOCK_INDEX)
      && (forall k | s.Voxels() <= k < |o.blockData| :: o.blockData[k] == COMMAND_BLOCK_INDEX)
  {
    var o := Convert(s, anchor).value;
    ZerosCoverVoxels(s.width, s.height, s.length);
    forall v | InBounds(v, s.width, s.height, s.length)
      ensures 0 <= FlatIndex(v, s.width, s.length) < |o.blockData|
      ensures o.blockData[FlatIndex(v, s.width, s.length)] ==
              if Resolve(s.palette, s.IndexAt(v)) == Some(AIR_BLOCK) then AIR_INDEX else COMMAND_BLOCK_INDEX
    {
      FlatIndexBounds(v, s.width, s.height, s.length);
      PaintSlots(s, s.Voxels(), FlatIndex(v, s.width, s.length));
    }
    forall k | s.Voxels() <= k < |o.blockData|
      ensures o.blockData[k] == COMMAND_BLOCK_INDEX
    {
      PaintSlots(s, s.Voxels(), k);
    }
  }

  /** The scan that produces the replica's entities. */
  function EntityHits(s: Schematic, anchor: Vec3): seq<Hit<BlockEntity>>
    requires s.Readable()
  {
    Hits(s.width, s.height, s.length, s.blockData, s.Voxels(), EntityEntry(s, anchor))
  }

  /** The `i`-th entity is a command block at an in-box voxel whose
      identifier is non-empty and not air, re-placing it at its absolute
      position. */
  lemma EntityFrom(s: Schematic, anchor: Vec3, i: nat)
    requires s.Readable()
    requires i < |EntityHits(s, anchor)|
    ensures var hit := EntityHits(s, anchor)[i];
      var e := hit.value;
      && e.pos == hit.at
      && IsCommandBlock(e)
      && InBounds(e.pos, s.width, s.height, s.length)
      && Named(s.palette, s.IndexAt(e.pos)).Some?
      && Named(s.palette, s.IndexAt(e.pos)).value != AIR_BLOCK
      && e.command == SetblockCommand(Absolute(s, anchor, e.pos), Named(s.palette, s.IndexAt(e.pos)).value)
  {
    var w, h, l, data, n, f := s.width, s.height, s.length, s.blockData, s.Voxels(), EntityEntry(s, anchor);
    HitAt(w, h, l, data, n, f, i);
    var hit := EntityHits(s, anchor)[i];
    assert f(hit.at, data[FlatIndex(hit.at, w, l)]) == Some(hit.value);
  }

  lemma EntitiesSound(s: Schematic, anchor: Vec3)
    requires s.Readable()
    ensures var es := Values(EntityHits(s, anchor));
      forall i | 0 <= i < |es| ::
        && IsCommandBlock(es[i])
        && InBounds(es[i].pos, s.width, s.height, s.length)
        && Named(s.palette, s.IndexAt(es[i].pos)).Some?
        && Named(s.palette, s.IndexAt(es[i].pos)).value != AIR_BLOCK
        && es[i].command == SetblockCommand(Absolute(s, anchor, es[i].pos), Named(s.palette, s.IndexAt(es[i].pos)).value)
  {
    forall i | 0 <= i < |EntityHits(s, anchor)| {
      EntityFrom(s, anchor, i);
    }
  }

  lemma EntitiesOrdered(s: Schematic, anchor: Vec3)
    requires s.Readable()
    ensures var es := Values(EntityHits(s, anchor));
      forall i, j | 0 <= i < j < |es| :: LexLess(es[i].pos, es[j].pos)
  {
    var w, h, l, data, n, f := s.width, s.height, s.length, s.blockData, s.Voxels(), EntityEntry(s, anchor);
    var hits := EntityHits(s, anchor);
    assert hits == Hits(w, h, l, data, n, f);
    HitsOrdered(w, h, l, data, n, f);
    forall i, j | 0 <= i < j < |hits|
      ensures LexLess(hits[i].value.pos, hits[j].value.pos)
    {
      EntityFrom(s, anchor, i);
      EntityFrom(s, anchor, j);
      assert LexLess(hits[i].at, hits[j].at);
    }
  }

  lemma EntitiesComplete(s: Schematic, anchor: Vec3)
    requires s.Readable()
    ensures var es := Values(EntityHits(s, anchor));
      forall v | InBounds(v, s.width, s.height, s.length) &&
                 Named(s.palette, s.IndexAt(v)).Some? && Named(s.palette, s.IndexAt(v)).value != AIR_BLOCK ::
        exists i :: 0 <= i < |es| && es[i].pos == v
  {
    var w, h, l, data, n, f := s.width, s.height, s.length, s.blockData, s.Voxels(), EntityEntry(s, anchor);
    var hits := EntityHits(s, anchor);
    forall v | InBounds(v, w, h, l) && Named(s.palette, s.IndexAt(v)).Some? && Named(s.palette, s.IndexAt(v)).value != AIR_BLOCK
      ensures exists i :: 0 <= i < |Values(hits)| && Values(hits)[i].pos == v
    {
      FlatIndexBounds(v, w, h, l);
      HitsComplete(w, h, l, data, n, f, v);
      var i :| 0 <= i < |hits| && hits[i] == Hit(v, f(v, data[FlatIndex(v, w, l)]).value);
      assert Values(hits)[i].pos == v;
    }
  }

  /** The replica's block entities: one command block per voxel whose index
      names a non-empty, non-air identifier, at its local position, whose
      command re-places that identifier at anchor + offset + position; each
      once, in strictly increasing (y, z, x) order. */
  lemma ConvertEntities(s: Schematic, anchor: Vec3)
    requires Convert(s, anchor).Ok?
    ensures var es := Convert(s, anchor).value.blockEntities;
      && (forall i | 0 <= i < |es| ::
            && IsCommandBlock(es[i])
            && InBounds(es[i].pos, s.width, s.height, s.length)
            && Named(s.palette, s.IndexAt(es[i].pos)).Some?
            && Named(s.palette, s.IndexAt(es[i].pos)).value != AIR_BLOCK
            && es[i].command == SetblockCommand(Absolute(s, anchor, es[i].pos), Named(s.palette, s.IndexAt(es[i].pos)).value))
      && (forall i, j | 0 <= i < j < |es| :: LexLess(es[i].pos, es[j].pos))
      && (forall v | InBounds(v, s.width, s.height, s.length) &&
                     Named(s.palette, s.IndexAt(v)).Some? && Named(s.palette, s.IndexAt(v)).value != AIR_BLOCK ::
            exists i :: 0 <= i < |es| && es[i].pos == v)
  {
    assert Convert(s, anchor).value.blockEntities == Values(EntityHits(s, anchor));
    EntitiesSound(s, anchor);
    EntitiesOrdered(s, anchor);
    EntitiesComplete(s, anchor);
  }

  /** The entity scan keeps the voxels the block-list scan keeps, each
      entity running the setblock command of the matching line. */
  lemma EntitiesMirrorLines(s: Schematic, anchor: Vec3)
    requires s.Readable()
    ensures var he, hl := EntityHits(s, anchor), LineHits(s, anchor);
      && |he| == |hl|
      && forall i | 0 <= i < |he| ::
           he[i].at == hl[i].at &&
           he[i].value == CommandBlockAt(hl[i].at, SetblockCommand(hl[i].value.pos, hl[i].value.block))
  {
    var w, h, l, data, n := s.width, s.height, s.length, s.blockData, s.Voxels();
    var f, g := ListEntry(s, anchor), EntityEntry(s, anchor);
    var t := (v: Vec3, line: BlockLine) => CommandBlockAt(v, SetblockCommand(line.pos, line.block));
    forall v, index
      ensures f(v, index).Some? <==> g(v, index).Some?
      ensures f(v, index).Some? ==> g(v, index).value == t(v, f(v, index).value)
    {
    }
    HitsTransfer(w, h, l, data, n, f, g, t);
  }

  /** Running the replica's commands in order places exactly the blocks the
      block list shows, in the same order, and each command sits at the
      local position of the block it places. */
  lemma ConvertReplaysBlockList(s: Schematic, anchor: Vec3)
    requires Convert(s, anchor).Ok?
    ensures var es := Convert(s, anchor).value.blockEntities;
      var lines := GenerateBlockList(s, anchor).value;
      && |es| == |lines|
      && forall i | 0 <= i < |es| ::
           && ParseSetblock(es[i].command) == Some((lines[i].pos, lines[i].block))
           && Absolute(s, anchor, es[i].pos) == lines[i].pos
  {
    var he, hl := EntityHits(s, anchor), LineHits(s, anchor);
    var es := Convert(s, anchor).value.blockEntities;
    var lines := GenerateBlockList(s, anchor).value;
    assert es == Values(he);
    assert lines == Values(hl);
    EntitiesMirrorLines(s, anchor);
    forall i | 0 <= i < |es|
      ensures ParseSetblock(es[i].command) == Some((lines[i].pos, lines[i].block))
      ensures Absolute(s, anchor, es[i].pos) == lines[i].pos
    {
      LineFrom(s, anchor, i);
    }
  }

  /** The replica records the offset its commands were computed with, so
      pasting it at the anchor puts every command block where the block it
      places goes. */
  lemma ConvertCommandsMatchFootprint(s: Schematic, anchor: Vec3)
    requires Convert(s, anchor).Ok?
    ensures var o := Convert(s, anchor).value;
      forall i | 0 <= i < |o.blockEntities| ::
        ParseSetblock(o.blockEntities[i].command).Some? &&
        ParseSetblock(o.blockEntities[i].command).value.0 == anchor.Plus(o.offset.value).Plus(o.blockEntities[i].pos)
  {
    ConvertReplaysBlockList(s, anchor);
  }

  /** A schematic whose palette holds nothing but air lists no blocks and
      converts to a replica without command-block entities. */
  lemma AllAirConvertsToNothing(s: Schematic, anchor: Vec3)
    requires Convert(s, anchor).Ok?
    requires forall key | key in s.palette :: key == AIR_BLOCK
    ensures GenerateBlockList(s, anchor).value == []
    ensures Convert(s, anchor).value.blockEntities == []
  {
    var f := ListEntry(s, anchor);
    forall v, index
      ensures f(v, index).None?
    {
    }
    HitsNone(s.width, s.height, s.length, s.blockData, s.Voxels(), f);
    ConvertReplaysBlockList(s, anchor);
  }
}

=== FILE: generator.dfy ===
/** The schematic generator: reads the eight text fields of the generator
    form, applies their defaults, validates the dimensions, and builds a
    width × height × length schematic filled with one block type, with a
    command block entity in every voxel when that type is a command block. */
module Generator {
  import opened Results
  import opened Grid
  import opened Text
  import opened Schematics

  const DEFAULT_BLOCK: string := "minecraft:command_block"
  const DEFAULT_COMMAND: string := "say Hello from command block"
  /** The state appended to a block type that names none. */
  const DEFAULT_STATE: string := "[conditional=false,facing=up]"
  /** The substring that makes a block type a command block. */
  const COMMAND_BLOCK_MARK: string := "command_block"
  const SCHEMATIC_VERSION := 2
  const DATA_VERSION := 4550

  /** The generator form: the text of each field as typed. */
  datatype Form = Form(
    block: string,
    width: string,
    height: string,
    length: string,
    x: string,
    y: string,
    z: string,
    command: string)

  /** Why generation returns None: a field `int()` or `float()` rejects or a
      dimension below 1 (ValueErrors), or a coordinate whose `float()` is
      infinite, which `int()` refuses with an OverflowError that the generic
      handler reports. */
  datatype GenerateError =
    | NotAnInteger(text: string)
    | NotANumber(text: string)
    | InfiniteNumber(text: string)
    | NonPositiveDimensions

  lemma DefaultBlockHasNoDoubleUnderscore()
    ensures !Contains(DEFAULT_BLOCK, "__")
  {
    assert DEFAULT_BLOCK == "minecraft:command" + "_" + "block";
    SingleUnderscore("minecraft:command", "block");
  }

  /** The block type: "__" typed for ':' (a field cannot hold ':'), and the
      command block when the field is empty. The leftmost "__" becomes ':'
      and the rest of the field is replaced in turn. */
  function BlockType(field: string): (t: string)
    ensures t != ""
    ensures !Contains(t, "__")
    ensures field == "" ==> t == DEFAULT_BLOCK
    ensures field != "" && !Contains(field, "__") ==> t == field
    ensures forall i | OccursAt(field, "__", i) && (forall j | 0 <= j < i :: !OccursAt(field, "__", j)) ::
      t == field[..i] + ":" + Replace(field[i + 2..], "__", ":")
  {
    ReplaceDoubleUnderscore(field);
    var replaced := Replace(field, "__", ":");
    ReplaceEachFirst(field, "__", ":");
    if replaced == "" then
      DefaultBlockHasNoDoubleUnderscore();
      DEFAULT_BLOCK
    else replaced
  }

  /** The leftmost "__" reads as ':' ("minecraft__stone" is
      "minecraft:stone", "my_mod__ruby" is "my_mod:ruby"), and the rest of
      the field is replaced in turn. Every field holding "__" splits this
      way at its first "__", so with `BlockType`'s own contract this covers
      every field. */
  lemma BlockTypeColon(a: string, b: string)
    requires !Contains(a, "__") && (a == "" || a[|a| - 1] != '_')
    ensures BlockType(a + "__" + b) == a + ":" + Replace(b, "__", ":")
    ensures !Contains(b, "__") ==> BlockType(a + "__" + b) == a + ":" + b
  {
    ReplaceAtPair(a, b);
  }

  /** A dimension field: 1 when empty, else `int()` of its text. */
  function Dimension(field: string): (r: Result<int, GenerateError>)
    ensures field == "" ==> r == Ok(1)
    ensures field != "" ==> (r.Ok? <==> ParseInt(field).Some?)
    ensures r.Err? ==> r.error == NotAnInteger(field)
  {
    if field == "" then Ok(1)
    else match ParseInt(field)
      case None => Err(NotAnInteger(field))
      case Some(n) => Ok(n)
  }

  /** A player coordinate field: `int(float(text or "0"))`. A text outside
      the decimal form is a ValueError; one whose integer part reaches the
      float range's end is infinite and an OverflowError. */
  function Coordinate(field: string): (r: Result<int, GenerateError>)
    ensures field == "" ==> r == Ok(0)
    ensures field != "" ==> (r.Ok? <==> ParseTruncated(field).Some? && FiniteFloat(ParseTruncated(field).value))
    ensures r.Ok? ==> FiniteFloat(r.value)
    ensures r.Err? ==>
      && field != ""
      && r.error == (if ParseTruncated(field).None? then NotANumber(field) else InfiniteNumber(field))
  {
    var text := if field == "" then "0" else field;
    ParseTruncatedExtendsParseInt("0");
    match ParseTruncated(text)
    case None => Err(NotANumber(field))
    case Some(n) => if FiniteFloat(n) then Ok(n) else Err(InfiniteNumber(field))
  }

  /** Typing a number into a dimension field gives that number. */
  lemma DimensionOfNumber(n: int)
    ensures Dimension(IntToString(n)) == Ok(n)
  {
    IntToStringRoundTrip(n);
  }

  /** Typing an integer into a coordinate field gives that integer, for
      every integer that is itself a binary64 value. */
  lemma CoordinateOfNumber(n: int)
    requires -(EXACT_FLOAT_LIMIT as int) <= n <= EXACT_FLOAT_LIMIT
    ensures Coordinate(IntToString(n)) == Ok(n)
  {
    IntToStringRoundTrip(n);
    ParseTruncatedExtendsParseInt(IntToString(n));
  }

  /** An integer past the float range is refused: `float()` of it is
      infinite and `int()` raises. */
  lemma CoordinateOverflows(n: int)
    requires n <= -(FLOAT_OVERFLOW as int) || FLOAT_OVERFLOW <= n
    ensures Coordinate(IntToString(n)) == Err(InfiniteNumber(IntToString(n)))
  {
    IntToStringRoundTrip(n);
    ParseTruncatedExtendsParseInt(IntToString(n));
  }

  /** 2^49: below it binary64 values are at most 1/8 apart. */
  const TRUNCATION_SAFE_LIMIT: nat := 562949953421312

  /** A decimal is truncated toward zero: "2.7" reads as 2 and "-2.7" as -2.
      The bounds keep Python's rounding to binary64 away from the next
      integer: below 2^49 neighbouring binary64 values are at most 1/8 apart,
      and a fraction not starting with '9' leaves more than 1/10 to the next
      integer, so the nearest binary64 value still truncates to `m`. */
  lemma CoordinateTruncates(m: nat, fraction: string)
    requires AllDigits(fraction) && m < TRUNCATION_SAFE_LIMIT
    requires fraction == "" || fraction[0] != '9'
    ensures Coordinate(NatToString(m) + "." + fraction) == Ok(m)
    ensures Coordinate("-" + (NatToString(m) + "." + fraction)) == Ok(-(m as int))
  {
    ParseTruncatedDecimal(m, fraction);
    ParseTruncatedNegativeDecimal(m, fraction);
  }

  /** The command every command block runs: the field's text, or the
      greeting when it is empty. */
  function CommandText(field: string): (c: string)
    ensures c != ""
    ensures field == "" ==> c == DEFAULT_COMMAND
    ensures field != "" ==> c == field
  {
    if field == "" then DEFAULT_COMMAND else field
  }

  /** The palette key: the block type itself when it names a state, else
      the block type with the default state. */
  function PaletteKey(blockType: string): (key: string)
    ensures '[' in key
    ensures StripState(key) == StripState(blockType)
    ensures '[' in blockType ==> key == blockType
    ensures '[' !in blockType ==> key == blockType + DEFAULT_STATE
  {
    if '[' in blockType then blockType
    else
      TextBeforeOf(blockType, '[', DEFAULT_STATE[1..]);
      TextBeforeAbsent(blockType, '[');
      assert blockType + DEFAULT_STATE == blockType + ['['] + DEFAULT_STATE[1..];
      assert (blockType + DEFAULT_STATE)[|blockType|] == '[';
      blockType + DEFAULT_STATE
  }

  /** The block entities of the generated structure: one command block per
      voxel, in Y→Z→X order, each running `command`. */
  function CommandBlocks(w: int, h: int, l: int, command: string): (es: seq<BlockEntity>)
    ensures |es| == Volume(w, h, l)
  {
    seq(Volume(w, h, l), k requires 0 <= k < Volume(w, h, l) => CommandBlockAt(Order(w, h, l)[k], command))
  }

  /** Every voxel of the box holds exactly one command block, every command
      block sits in the box, and they come in strictly increasing (y, z, x)
      order, each correctly flagged and running `command`. */
  lemma CommandBlocksCoverBox(w: int, h: int, l: int, command: string)
    ensures var es := CommandBlocks(w, h, l, command);
      && (forall i | 0 <= i < |es| ::
            IsCommandBlock(es[i]) && es[i].command == command && InBounds(es[i].pos, w, h, l))
      && (forall i, j | 0 <= i < j < |es| :: LexLess(es[i].pos, es[j].pos))
      && (forall v | InBounds(v, w, h, l) ::
            0 <= FlatIndex(v, w, l) < |es| && es[FlatIndex(v, w, l)].pos == v)
  {
    var es := CommandBlocks(w, h, l, command);
    forall i | 0 <= i < |es|
      ensures InBounds(es[i].pos, w, h, l)
    {
      OrderIndex(w, h, l, i);
    }
    forall i, j | 0 <= i < j < |es|
      ensures LexLess(es[i].pos, es[j].pos)
    {
      OrderStrictlyIncreasing(w, h, l, i, j);
    }
    forall v | InBounds(v, w, h, l)
      ensures 0 <= FlatIndex(v, w, l) < |es| && es[FlatIndex(v, w, l)].pos == v
    {
      OrderCovers(v, w, h, l);
    }
  }

  /** The source's triple loop appending one command block per voxel. */
  method PlaceCommandBlocks(w: int, h: int, l: int, command: string) returns (es: seq<BlockEntity>)
    ensures es == CommandBlocks(w, h, l, command)
  {
    es := [];
    var py := 0;
    while py < h
      invariant 0 <= py <= Span(h)
      invariant |es| == Mul(py, Mul(Span(l), Span(w)))
      invariant forall k | 0 <= k < |es| :: es[k] == CommandBlockAt(VoxelAt(k, w, l), command)
    {
      var pz := 0;
      while pz < l
        invariant 0 <= pz <= Span(l)
        invariant |es| == Mul(py, Mul(Span(l), Span(w))) + Mul(pz, Span(w))
        invariant forall k | 0 <= k < |es| :: es[k] == CommandBlockAt(VoxelAt(k, w, l), command)
      {
        var px := 0;
        while px < w
          invariant 0 <= px <= Span(w)
          invariant |es| == Mul(py, Mul(Span(l), Span(w))) + Mul(pz, Span(w)) + px
          invariant forall k | 0 <= k < |es| :: es[k] == CommandBlockAt(VoxelAt(k, w, l), command)
        {
          OrderCovers(Vec3(px, py, pz), w, h, l);
          es := es + [CommandBlockAt(Vec3(px, py, pz), command)];
          px := px + 1;
        }
        pz := pz + 1;
      }
      py := py + 1;
    }
    VolumeOfBox(w, h, l);
    MulByZero(Span(l));
    MulByZero(py);
  }

  /** WorldEdit's offset metadata, all zero. */
  function ZeroMetadata(): Metadata {
    map["WEOffsetX" := 0, "WEOffsetY" := 0, "WEOffsetZ" := 0]
  }

  /** The schematic for validated inputs. */
  function Structure(blockType: string, w: int, h: int, l: int, command: string): Schematic {
    var key := PaletteKey(blockType);
    var palette: Palette := map[key := 0];
    Schematic(
      Some(SCHEMATIC_VERSION), Some(DATA_VERSION), w, h, l, Some(1), palette,
      seq(ZerosLength(w, h, l), _ => 0),
      if Contains(blockType, COMMAND_BLOCK_MARK) then CommandBlocks(w, h, l, command) else [],
      Some(Origin), Some(ZeroMetadata()))
  }

  /** `generate_schematic` up to writing the file: the fields are read in
      order block, width, height, length, x, y, z, command, and the first
      rejected one is the error; then the dimensions are checked. */
  function GenerateSchematic(form: Form): (r: Result<Schematic, GenerateError>)
    ensures r.Ok? <==>
      && Dimension(form.width).Ok? && Dimension(form.height).Ok? && Dimension(form.length).Ok?
      && Coordinate(form.x).Ok? && Coordinate(form.y).Ok? && Coordinate(form.z).Ok?
      && Dimension(form.width).value >= 1 && Dimension(form.height).value >= 1 && Dimension(form.length).value >= 1
    ensures r.Ok? ==>
      var g := r.value;
      && g.version == Some(2) && g.dataVersion == Some(4550) && g.paletteMax == Some(1)
      && g.width == Dimension(form.width).value
      && g.height == Dimension(form.height).value
      && g.length == Dimension(form.length).value
      && g.palette == map[PaletteKey(BlockType(form.block)) := 0]
      && |g.blockData| == g.Voxels()
      && (forall k | 0 <= k < |g.blockData| :: g.blockData[k] == 0)
      && g.offset == Some(Origin)
      && g.metadata == Some(ZeroMetadata())
  {
    var width, height, length := Dimension(form.width), Dimension(form.height), Dimension(form.length);
    var x, y, z := Coordinate(form.x), Coordinate(form.y), Coordinate(form.z);
    if width.Err? then Err(width.error)
    else if height.Err? then Err(height.error)
    else if length.Err? then Err(length.error)
    else if x.Err? then Err(x.error)
    else if y.Err? then Err(y.error)
    else if z.Err? then Err(z.error)
    else if width.value < 1 || height.value < 1 || length.value < 1 then Err(NonPositiveDimensions)
    else
      var w, h, l := width.value, height.value, length.value;
      ZerosCoverVoxels(w, h, l);
      Ok(Structure(BlockType(form.block), w, h, l, CommandText(form.command)))
  }

  /** Which error is reported: the first field, in reading order, that does
      not parse, and the dimension check only when every field parses. */
  lemma GenerateErrors(form: Form)
    ensures Dimension(form.width).Err? ==> GenerateSchematic(form) == Err(NotAnInteger(form.width))
    ensures Dimension(form.width).Ok? && Dimension(form.height).Err? ==>
      GenerateSchematic(form) == Err(NotAnInteger(form.height))
    ensures Dimension(form.width).Ok? && Dimension(form.height).Ok? && Dimension(form.length).Err? ==>
      GenerateSchematic(form) == Err(NotAnInteger(form.length))
    ensures Dimension(form.width).Ok? && Dimension(form.height).Ok? && Dimension(form.length).Ok? ==>
      && (Coordinate(form.x).Err? ==> GenerateSchematic(form) == Err(Coordinate(form.x).error))
      && (Coordinate(form.x).Ok? && Coordinate(form.y).Err? ==> GenerateSchematic(form) == Err(Coordinate(form.y).error))
      && (Coordinate(form.x).Ok? && Coordinate(form.y).Ok? && Coordinate(form.z).Err? ==>
            GenerateSchematic(form) == Err(Coordinate(form.z).error))
    ensures GenerateSchematic(form) == Err(NonPositiveDimensions) <==>
      && Dimension(form.width).Ok? && Dimension(form.height).Ok? && Dimension(form.length).Ok?
      && Coordinate(form.x).Ok? && Coordinate(form.y).Ok? && Coordinate(form.z).Ok?
      && (Dimension(form.width).value < 1 || Dimension(form.height).value < 1 || Dimension(form.length).value < 1)
  {
  }

  /** The block entities of a generated schematic: a command block running
      the command in every voxel when the block type mentions
      "command_block", and none otherwise. */
  lemma GeneratedEntities(form: Form)
    requires GenerateSchematic(form).Ok?
    ensures var g := GenerateSchematic(form).value;
      var command := CommandText(form.command);
      if Contains(BlockType(form.block), COMMAND_BLOCK_MARK) then
        && g.blockEntities == CommandBlocks(g.width, g.height, g.length, command)
        && |g.blockEntities| == g.Voxels()
        && (forall i | 0 <= i < |g.blockEntities| ::
              IsCommandBlock(g.blockEntities[i]) && g.blockEntities[i].command == command &&
              InBounds(g.blockEntities[i].pos, g.width, g.height, g.length))
        && (forall v | InBounds(v, g.width, g.height, g.length) ::
              exists i :: 0 <= i < |g.blockEntities| && g.blockEntities[i].pos == v)
      else g.blockEntities == []
  {
    var g := GenerateSchematic(form).value;
    CommandBlocksCoverBox(g.width, g.height, g.length, CommandText(form.command));
    if Contains(BlockType(form.block), COMMAND_BLOCK_MARK) {
      forall v | InBounds(v, g.width, g.height, g.length)
        ensures exists i :: 0 <= i < |g.blockEntities| && g.blockEntities[i].pos == v
      {
        var i := FlatIndex(v, g.width, g.length);
        assert 0 <= i < |g.blockEntities| && g.blockEntities[i].pos == v;
      }
    }
  }

  /** The player coordinates only have to parse: two forms that differ in
      nothing else generate the same schematic. */
  lemma CoordinatesDoNotMatter(form: Form, x: string, y: string, z: string)
    requires Coordinate(form.x).Ok? && Coordinate(form.y).Ok? && Coordinate(form.z).Ok?
    requires Coordinate(x).Ok? && Coordinate(y).Ok? && Coordinate(z).Ok?
    ensures GenerateSchematic(form.(x := x, y := y, z := z)) == GenerateSchematic(form)
  {
  }

  /** An all-empty form gives a 1×1×1 command block running the greeting,
      at the origin. */
  lemma EmptyFormDefaults()
    ensures var r := GenerateSchematic(Form("", "", "", "", "", "", "", ""));
      && r.Ok?
      && r.value.width == 1 && r.value.height == 1 && r.value.length == 1
      && r.value.palette == map[DEFAULT_BLOCK + DEFAULT_STATE := 0]
  {
    assert '[' !in DEFAULT_BLOCK;
  }

  /** `generate_schematic_from_command`: the form filled for a single
      command block at the origin. */
  function FromCommand(command: string): (f: Form)
    ensures BlockType(f.block) == DEFAULT_BLOCK
    ensures Dimension(f.width) == Ok(1) && Dimension(f.height) == Ok(1) && Dimension(f.length) == Ok(1)
    ensures Coordinate(f.x) == Ok(0) && Coordinate(f.y) == Ok(0) && Coordinate(f.z) == Ok(0)
    ensures f.command == command
  {
    DefaultBlockIsKept();
    CommandFormFields();
    Form(DEFAULT_BLOCK, "1", "1", "1", "0", "0", "0", command)
  }

  /** The default block type is kept as typed. */
  lemma DefaultBlockIsKept()
    ensures BlockType(DEFAULT_BLOCK) == DEFAULT_BLOCK
  {
    DefaultBlockHasNoDoubleUnderscore();
  }

  /** The default block type is a command block. */
  lemma DefaultBlockIsCommandBlock()
    ensures Contains(DEFAULT_BLOCK, COMMAND_BLOCK_MARK)
  {
    assert OccursAt(DEFAULT_BLOCK, COMMAND_BLOCK_MARK, 10);
  }

  /** The palette key of the default block type carries the default state. */
  lemma DefaultBlockKey()
    ensures PaletteKey(DEFAULT_BLOCK) == DEFAULT_BLOCK + DEFAULT_STATE
  {
    assert '[' !in DEFAULT_BLOCK;
  }

  /** The size and position fields `generate_schematic_from_command` fills. */
  lemma CommandFormFields()
    ensures Dimension("1") == Ok(1)
    ensures Coordinate("0") == Ok(0)
  {
  }

  /** A 1×1×1 structure of a command block type: one palette entry, one
      voxel pointing at it, and one command block at the origin. */
  lemma UnitStructure(blockType: string, command: string)
    requires Contains(blockType, COMMAND_BLOCK_MARK)
    ensures var g := Structure(blockType, 1, 1, 1, command);
      && g.palette == map[PaletteKey(blockType) := 0]
      && g.blockData == [0]
      && g.blockEntities == [CommandBlockAt(Origin, command)]
  {
  }

  /** A command turned into a schematic is a single command block at the
      origin that runs it (the greeting when it is empty). */
  lemma FromCommandIsOneBlock(command: string)
    ensures var r := GenerateSchematic(FromCommand(command));
      && r.Ok?
      && r.value.width == 1 && r.value.height == 1 && r.value.length == 1
      && r.value.palette == map[DEFAULT_BLOCK + DEFAULT_STATE := 0]
      && r.value.blockData == [0]
      && r.value.blockEntities == [CommandBlockAt(Origin, CommandText(command))]
  {
    DefaultBlockIsKept();
    DefaultBlockIsCommandBlock();
    DefaultBlockKey();
    CommandFormFields();
    UnitStructure(DEFAULT_BLOCK, CommandText(command));
  }
}

=== FILE: grid.dfy ===
/** The voxel grid of a schematic: a width × height × length box whose
    voxels are stored in one flat array, Y outermost, then Z, then X
    innermost, at index `y*(length*width) + z*width + x`. */
module Grid {
  import opened Results

  datatype Vec3 = Vec3(x: int, y: int, z: int) {
    function Plus(o: Vec3): Vec3 {
      Vec3(x + o.x, y + o.y, z + o.z)
    }

    function Minus(o: Vec3): Vec3 {
      Vec3(x - o.x, y - o.y, z - o.z)
    }
  }

  const Origin := Vec3(0, 0, 0)

  /** Number of values `range(n)` yields. */
  function Span(n: int): nat {
    if n > 0 then n else 0
  }

  /** Integer product by repeated addition over the first factor. The
      verifier unfolds it one step at a time, which keeps every proof about
      flat indices in linear arithmetic; `MulIsProduct` ties it to `*`. */
  function Mul(a: int, b: int): int
    decreases if a < 0 then -a else a
  {
    if a == 0 then 0 else if a > 0 then Mul(a - 1, b) + b else Mul(a + 1, b) - b
  }

  lemma {:induction false} MulIsProduct(a: int, b: int)
    ensures Mul(a, b) == a * b
    decreases if a < 0 then -a else a
  {
    if a > 0 {
      MulIsProduct(a - 1, b);
    } else if a < 0 {
      MulIsProduct(a + 1, b);
    }
  }

  lemma {:induction false} MulNonNeg(a: nat, b: nat)
    ensures Mul(a, b) >= 0
  {
    if a > 0 {
      MulNonNeg(a - 1, b);
    }
  }

  lemma {:induction false} MulByZero(a: int)
    ensures Mul(a, 0) == 0
    decreases if a < 0 then -a else a
  {
    if a > 0 {
      MulByZero(a - 1);
    } else if a < 0 {
      MulByZero(a + 1);
    }
  }

  lemma {:induction false} MulMonoLeft(a: int, a': int, b: nat)
    requires 0 <= a <= a'
    ensures Mul(a, b) <= Mul(a', b)
    decreases a' - a
  {
    if a < a' {
      MulMonoLeft(a, a' - 1, b);
    }
  }

  /** Number of voxels the triple loop over `range(h)`, `range(l)`,
      `range(w)` visits. */
  function Volume(w: int, h: int, l: int): nat {
    MulNonNeg(Span(l), Span(w));
    MulNonNeg(Span(h), Mul(Span(l), Span(w)));
    Mul(Span(h), Mul(Span(l), Span(w)))
  }

  /** A box with voxels has positive dimensions, and then holds
      height·(length·width) voxels. */
  lemma VolumeOfBox(w: int, h: int, l: int)
    ensures Volume(w, h, l) > 0 <==> w > 0 && h > 0 && l > 0
    ensures Volume(w, h, l) > 0 ==> Volume(w, h, l) == Mul(h, Mul(l, w))
  {
    MulByZero(Span(l));
    MulByZero(Span(h));
    if w > 0 && h > 0 && l > 0 {
      MulNonNeg(l - 1, w);
      MulNonNeg(h - 1, Mul(l, w));
    }
  }

  predicate InBounds(v: Vec3, w: int, h: int, l: int) {
    0 <= v.x < w && 0 <= v.y < h && 0 <= v.z < l
  }

  /** The flat index of voxel `v`: `y*(length*width) + z*width + x`. */
  function FlatIndex(v: Vec3, w: int, l: int): int {
    Mul(v.y, Mul(l, w)) + Mul(v.z, w) + v.x
  }

  /** `FlatIndex` is the formula the source writes with `*`. */
  lemma FlatIndexFormula(v: Vec3, w: int, l: int)
    ensures FlatIndex(v, w, l) == v.y * (l * w) + v.z * w + v.x
  {
    MulIsProduct(l, w);
    MulIsProduct(v.y, Mul(l, w));
    MulIsProduct(v.z, w);
  }

  /** Lexicographic order on (y, z, x), the order of the triple loop. */
  predicate LexLess(a: Vec3, b: Vec3) {
    a.y < b.y || (a.y == b.y && (a.z < b.z || (a.z == b.z && a.x < b.x)))
  }

  /** One step of the triple loop: advance x; past the width, restart x and
      advance z; past the length, restart z and advance y. */
  function Next(v: Vec3, w: int, l: int): Vec3 {
    if v.x + 1 < w then Vec3(v.x + 1, v.y, v.z)
    else if v.z + 1 < l then Vec3(0, v.y, v.z + 1)
    else Vec3(0, v.y + 1, 0)
  }

  /** The voxel the triple loop visits `k`-th, counting from 0. */
  function VoxelAt(k: nat, w: int, l: int): Vec3 {
    if k == 0 then Origin else Next(VoxelAt(k - 1, w, l), w, l)
  }

  /** Every voxel of the box, in visit order. */
  function Order(w: int, h: int, l: int): (vs: seq<Vec3>)
    ensures |vs| == Volume(w, h, l)
  {
    seq(Volume(w, h, l), k requires 0 <= k < Volume(w, h, l) => VoxelAt(k, w, l))
  }

  /** The `k`-th visit is inside the box, at flat index `k`. */
  lemma {:induction false} VoxelAtIndex(k: nat, w: int, h: int, l: int)
    requires k < Volume(w, h, l)
    ensures InBounds(VoxelAt(k, w, l), w, h, l)
    ensures FlatIndex(VoxelAt(k, w, l), w, l) == k
  {
    VolumeOfBox(w, h, l);
    if k > 0 {
      VoxelAtIndex(k - 1, w, h, l);
      var v := VoxelAt(k - 1, w, l);
      assert Mul(l, w) == Mul(l - 1, w) + w;
      assert Mul(v.z + 1, w) == Mul(v.z, w) + w;
      assert Mul(v.y + 1, Mul(l, w)) == Mul(v.y, Mul(l, w)) + Mul(l, w);
    }
  }

  /** An in-box voxel is stored inside the array. */
  lemma FlatIndexBounds(v: Vec3, w: int, h: int, l: int)
    requires InBounds(v, w, h, l)
    ensures 0 <= FlatIndex(v, w, l) < Volume(w, h, l)
  {
    VolumeOfBox(w, h, l);
    MulNonNeg(l, w);
    MulNonNeg(v.y, Mul(l, w));
    MulNonNeg(v.z, w);
    MulMonoLeft(v.y, h - 1, Mul(l, w));
    MulMonoLeft(v.z, l - 1, w);
  }

  /** Within the box, a voxel earlier in (y, z, x) order has a smaller flat
      index; any two voxels are equal or ordered one way. */
  lemma LexLessMeansSmallerIndex(a: Vec3, b: Vec3, w: int, h: int, l: int)
    requires InBounds(a, w, h, l) && InBounds(b, w, h, l)
    ensures LexLess(a, b) ==> FlatIndex(a, w, l) < FlatIndex(b, w, l)
    ensures a == b || LexLess(a, b) || LexLess(b, a)
  {
    MulNonNeg(l, w);
    MulNonNeg(b.z, w);
    if a.y < b.y {
      MulMonoLeft(a.z, l - 1, w);
      MulMonoLeft(a.y + 1, b.y, Mul(l, w));
    } else if a.y == b.y && a.z < b.z {
      MulMonoLeft(a.z + 1, b.z, w);
    }
  }

  /** Within the box, the flat index orders voxels exactly as (y, z, x). */
  lemma FlatIndexOrder(a: Vec3, b: Vec3, w: int, h: int, l: int)
    requires InBounds(a, w, h, l) && InBounds(b, w, h, l)
    ensures LexLess(a, b) <==> FlatIndex(a, w, l) < FlatIndex(b, w, l)
    ensures a == b <==> FlatIndex(a, w, l) == FlatIndex(b, w, l)
  {
    LexLessMeansSmallerIndex(a, b, w, h, l);
    LexLessMeansSmallerIndex(b, a, w, h, l);
  }

  /** The k-th voxel visited is the one stored at flat index k. */
  lemma OrderIndex(w: int, h: int, l: int, k: nat)
    requires k < Volume(w, h, l)
    ensures InBounds(Order(w, h, l)[k], w, h, l)
    ensures FlatIndex(Order(w, h, l)[k], w, l) == k
  {
    VoxelAtIndex(k, w, h, l);
  }

  /** Every voxel of the box is visited, at the position of its flat index. */
  lemma OrderCovers(v: Vec3, w: int, h: int, l: int)
    requires InBounds(v, w, h, l)
    ensures 0 <= FlatIndex(v, w, l) < |Order(w, h, l)|
    ensures Order(w, h, l)[FlatIndex(v, w, l)] == v
  {
    FlatIndexBounds(v, w, h, l);
    var k := FlatIndex(v, w, l);
    OrderIndex(w, h, l, k);
    FlatIndexOrder(v, Order(w, h, l)[k], w, h, l);
  }

  /** The visit order is strictly increasing in (y, z, x): no voxel is
      visited twice and the loops never step backwards. */
  lemma OrderStrictlyIncreasing(w: int, h: int, l: int, i: nat, j: nat)
    requires i < j < Volume(w, h, l)
    ensures LexLess(Order(w, h, l)[i], Order(w, h, l)[j])
  {
    OrderIndex(w, h, l, i);
    OrderIndex(w, h, l, j);
    FlatIndexOrder(Order(w, h, l)[i], Order(w, h, l)[j], w, h, l);
  }

  /** The voxels the triple loop visits are exactly those of the box. */
  lemma OrderContents(v: Vec3, w: int, h: int, l: int)
    ensures v in Order(w, h, l) <==> InBounds(v, w, h, l)
  {
    if InBounds(v, w, h, l) {
      OrderCovers(v, w, h, l);
    }
    if v in Order(w, h, l) {
      var k :| 0 <= k < |Order(w, h, l)| && Order(w, h, l)[k] == v;
      OrderIndex(w, h, l, k);
    }
  }

  /** The triple loop of the source: Y outermost, then Z, then X, appending
      each visited voxel. It visits the voxels in `Order`. */
  method EnumerateVoxels(w: int, h: int, l: int) returns (vs: seq<Vec3>)
    ensures vs == Order(w, h, l)
  {
    vs := [];
    var y := 0;
    while y < h
      invariant 0 <= y <= Span(h)
      invariant |vs| == Mul(y, Mul(Span(l), Span(w)))
      invariant forall k | 0 <= k < |vs| :: vs[k] == VoxelAt(k, w, l)
    {
      var z := 0;
      while z < l
        invariant 0 <= z <= Span(l)
        invariant |vs| == Mul(y, Mul(Span(l), Span(w))) + Mul(z, Span(w))
        invariant forall k | 0 <= k < |vs| :: vs[k] == VoxelAt(k, w, l)
      {
        var x := 0;
        while x < w
          invariant 0 <= x <= Span(w)
          invariant |vs| == Mul(y, Mul(Span(l), Span(w))) + Mul(z, Span(w)) + x
          invariant forall k | 0 <= k < |vs| :: vs[k] == VoxelAt(k, w, l)
        {
          OrderCovers(Vec3(x, y, z), w, h, l);
          vs := vs + [Vec3(x, y, z)];
          x := x + 1;
        }
        z := z + 1;
      }
      y := y + 1;
    }
    VolumeOfBox(w, h, l);
    MulByZero(Span(l));
    MulByZero(y);
  }

  /** A voxel the scan picked out, with what the scan made of it. */
  datatype Hit<T> = Hit(at: Vec3, value: T)

  function Values<T>(hits: seq<Hit<T>>): seq<T> {
    seq(|hits|, i requires 0 <= i < |hits| => hits[i].value)
  }

  lemma ValuesAppend<T>(hits: seq<Hit<T>>, more: seq<Hit<T>>)
    ensures Values(hits + more) == Values(hits) + Values(more)
  {
  }

  /** The scan shared by every modelled loop: visit the first `n` voxels in
      Y→Z→X order, read `data` at each voxel's flat index, and keep what
      `f` makes of the voxel and the index read, when it makes anything. */
  function Hits<T>(w: int, h: int, l: int, data: seq<int>, n: nat, f: (Vec3, int) -> Option<T>): (r: seq<Hit<T>>)
    requires n <= Volume(w, h, l) && n <= |data|
    ensures |r| <= n
    decreases n
  {
    if n == 0 then []
    else
      var rest := Hits(w, h, l, data, n - 1, f);
      var v := VoxelAt(n - 1, w, l);
      VoxelAtIndex(n - 1, w, h, l);
      var made := f(v, data[FlatIndex(v, w, l)]);
      if made.Some? then rest + [Hit(v, made.value)] else rest
  }

  /** One more visit appends at most the visited voxel. */
  lemma HitsStep<T>(w: int, h: int, l: int, data: seq<int>, n: nat, f: (Vec3, int) -> Option<T>)
    requires 0 < n <= Volume(w, h, l) && n <= |data|
    ensures var v := Order(w, h, l)[n - 1];
      && InBounds(v, w, h, l) && FlatIndex(v, w, l) == n - 1
      && Hits(w, h, l, data, n, f) ==
         Hits(w, h, l, data, n - 1, f) + (if f(v, data[n - 1]).Some? then [Hit(v, f(v, data[n - 1]).value)] else [])
  {
    OrderIndex(w, h, l, n - 1);
  }

  /** Every kept voxel lies in the box, among the first `n` visited, and
      carries the value `f` gave it. */
  lemma {:induction false} HitsSound<T>(w: int, h: int, l: int, data: seq<int>, n: nat, f: (Vec3, int) -> Option<T>)
    requires n <= Volume(w, h, l) && n <= |data|
    ensures var r := Hits(w, h, l, data, n, f);
      forall i | 0 <= i < |r| ::
        && InBounds(r[i].at, w, h, l)
        && 0 <= FlatIndex(r[i].at, w, l) < n
        && f(r[i].at, data[FlatIndex(r[i].at, w, l)]) == Some(r[i].value)
    decreases n
  {
    if n > 0 {
      HitsSound(w, h, l, data, n - 1, f);
      HitsStep(w, h, l, data, n, f);
    }
  }

  /** Visiting voxel `v` after every voxel before it appends at most what
      `f` makes of `v`: the step a loop over the box takes. */
  lemma ValuesStepAt<T>(w: int, h: int, l: int, data: seq<int>, f: (Vec3, int) -> Option<T>, v: Vec3)
    requires InBounds(v, w, h, l) && FlatIndex(v, w, l) < |data|
    ensures var k := FlatIndex(v, w, l);
      && 0 <= k < Volume(w, h, l)
      && Values(Hits(w, h, l, data, k + 1, f)) ==
         Values(Hits(w, h, l, data, k, f)) + (if f(v, data[k]).Some? then [f(v, data[k]).value] else [])
  {
    OrderCovers(v, w, h, l);
    var k := FlatIndex(v, w, l);
    HitsStep(w, h, l, data, k + 1, f);
    ValuesAppend(Hits(w, h, l, data, k, f), if f(v, data[k]).Some? then [Hit(v, f(v, data[k]).value)] else []);
  }

  /** A scan that keeps nothing anywhere finds nothing. */
  lemma {:induction false} HitsNone<T>(w: int, h: int, l: int, data: seq<int>, n: nat, f: (Vec3, int) -> Option<T>)
    requires n <= Volume(w, h, l) && n <= |data|
    requires forall v, x :: f(v, x).None?
    ensures Hits(w, h, l, data, n, f) == []
    decreases n
  {
    if n > 0 {
      HitsNone(w, h, l, data, n - 1, f);
    }
  }

  /** The facts of `HitsSound` for one kept voxel. */
  lemma HitAt<T>(w: int, h: int, l: int, data: seq<int>, n: nat, f: (Vec3, int) -> Option<T>, i: nat)
    requires n <= Volume(w, h, l) && n <= |data|
    requires i < |Hits(w, h, l, data, n, f)|
    ensures var hit := Hits(w, h, l, data, n, f)[i];
      && InBounds(hit.at, w, h, l)
      && 0 <= FlatIndex(hit.at, w, l) < n
      && f(hit.at, data[FlatIndex(hit.at, w, l)]) == Some(hit.value)
  {
    HitsSound(w, h, l, data, n, f);
    var r := Hits(w, h, l, data, n, f);
    assert InBounds(r[i].at, w, h, l);
  }

  /** Kept voxels come in strictly increasing (y, z, x) order. */
  lemma {:induction false} HitsOrdered<T>(w: int, h: int, l: int, data: seq<int>, n: nat, f: (Vec3, int) -> Option<T>)
    requires n <= Volume(w, h, l) && n <= |data|
    ensures var r := Hits(w, h, l, data, n, f);
      forall i, j | 0 <= i < j < |r| :: LexLess(r[i].at, r[j].at)
    decreases n
  {
    if n > 0 {
      HitsOrdered(w, h, l, data, n - 1, f);
      HitsSound(w, h, l, data, n - 1, f);
      HitsStep(w, h, l, data, n, f);
      var rest := Hits(w, h, l, data, n - 1, f);
      var u := Order(w, h, l)[n - 1];
      forall i | 0 <= i < |rest|
        ensures LexLess(rest[i].at, u)
      {
        FlatIndexOrder(rest[i].at, u, w, h, l);
      }
    }
  }

  /** Every voxel among the first `n` that `f` accepts is kept. */
  lemma {:induction false} HitsComplete<T>(w: int, h: int, l: int, data: seq<int>, n: nat, f: (Vec3, int) -> Option<T>, v: Vec3)
    requires n <= Volume(w, h, l) && n <= |data|
    requires InBounds(v, w, h, l) && 0 <= FlatIndex(v, w, l) < n
    requires f(v, data[FlatIndex(v, w, l)]).Some?
    ensures var r := Hits(w, h, l, data, n, f);
      exists i :: 0 <= i < |r| && r[i] == Hit(v, f(v, data[FlatIndex(v, w, l)]).value)
    decreases n
  {
    var k := FlatIndex(v, w, l);
    var hit := Hit(v, f(v, data[k]).value);
    if k == n - 1 {
      HitsLastVisit(w, h, l, data, n, f, v);
    } else {
      HitsComplete(w, h, l, data, n - 1, f, v);
      HitsPrefix(w, h, l, data, n - 1, n, f);
      var rest := Hits(w, h, l, data, n - 1, f);
      var i :| 0 <= i < |rest| && rest[i] == hit;
      assert Hits(w, h, l, data, n, f)[i] == hit;
    }
  }

  lemma HitsLastVisit<T>(w: int, h: int, l: int, data: seq<int>, n: nat, f: (Vec3, int) -> Option<T>, v: Vec3)
    requires 0 < n <= Volume(w, h, l) && n <= |data|
    requires InBounds(v, w, h, l) && FlatIndex(v, w, l) == n - 1
    requires f(v, data[n - 1]).Some?
    ensures var r := Hits(w, h, l, data, n, f);
      0 < |r| && r[|r| - 1] == Hit(v, f(v, data[n - 1]).value)
  {
    OrderCovers(v, w, h, l);
    HitsStep(w, h, l, data, n, f);
  }

  /** Scanning fewer voxels yields a prefix of the longer scan. */
  lemma {:induction false} HitsPrefix<T>(w: int, h: int, l: int, data: seq<int>, m: nat, n: nat, f: (Vec3, int) -> Option<T>)
    requires m <= n <= Volume(w, h, l) && n <= |data|
    ensures Hits(w, h, l, data, m, f) <= Hits(w, h, l, data, n, f)
    decreases n
  {
    if m < n {
      HitsPrefix(w, h, l, data, m, n - 1, f);
    }
  }

  /** The first `n` visits read only the first `n` entries of the array. */
  lemma {:induction false} HitsReadPrefix<T>(w: int, h: int, l: int, data: seq<int>, data': seq<int>, n: nat, f: (Vec3, int) -> Option<T>)
    requires n <= Volume(w, h, l) && n <= |data| && n <= |data'|
    requires data[..n] == data'[..n]
    ensures Hits(w, h, l, data, n, f) == Hits(w, h, l, data', n, f)
    decreases n
  {
    if n > 0 {
      assert data[..n - 1] == data'[..n - 1];
      HitsReadPrefix(w, h, l, data, data', n - 1, f);
      OrderIndex(w, h, l, n - 1);
      assert data[n - 1] == data[..n][n - 1];
    }
  }

  /** Two scans whose callbacks accept the same (voxel, index) pairs keep the
      same voxels; when `g` is `f` followed by `t`, the kept values agree
      through `t`. */
  lemma {:induction false} HitsTransfer<T, U>(w: int, h: int, l: int, data: seq<int>, n: nat,
                                              f: (Vec3, int) -> Option<T>, g: (Vec3, int) -> Option<U>, t: (Vec3, T) -> U)
    requires n <= Volume(w, h, l) && n <= |data|
    requires forall v, id :: f(v, id).Some? <==> g(v, id).Some?
    requires forall v, id | f(v, id).Some? :: g(v, id).value == t(v, f(v, id).value)
    ensures var a, b := Hits(w, h, l, data, n, f), Hits(w, h, l, data, n, g);
      |a| == |b| && forall i | 0 <= i < |a| :: b[i].at == a[i].at && b[i].value == t(a[i].at, a[i].value)
    decreases n
  {
    if n > 0 {
      HitsTransfer(w, h, l, data, n - 1, f, g, t);
    }
  }
}

=== FILE: pipeline.dfy ===
/** How the three tools meet: the viewer and the converter read the same
    schematics, and the generator writes schematics both can read. */
module Pipeline {
  import opened Results
  import opened Grid
  import opened Text
  import opened Schematics
  import opened Converter
  import opened Viewer
  import opened Generator

  /** Every palette key is non-empty and only "minecraft:air" itself names
      air once its state is cut off. */
  predicate PlainAir(p: Palette) {
    forall key | key in p :: key != "" && (StripState(key) == AIR_BLOCK ==> key == AIR_BLOCK)
  }

  /** On such a palette a voxel is listed by the converter exactly when the
      viewer draws it, and the two agree on the entry. */
  lemma EntriesAgree(s: Schematic, v: Vec3, index: int)
    requires PlainAir(s.palette)
    ensures ListEntry(s, Origin)(v, index).Some? <==> ViewEntry(s.palette, s.OffsetOrOrigin())(v, index).Some?
    ensures ListEntry(s, Origin)(v, index).Some? ==>
      var line := ListEntry(s, Origin)(v, index).value;
      ViewEntry(s.palette, s.OffsetOrOrigin())(v, index).value == ViewBlock(line.pos, StripState(line.block))
  {
    assert '[' !in AIR_BLOCK;
    if index in s.palette.Values {
      var key := Resolve(s.palette, index).value;
      assert key in s.palette;
      assert Named(s.palette, index) == Some(key);
      assert BlockName(s.palette, index) == StripState(key);
      assert Absolute(s, Origin, v) == v.Plus(s.OffsetOrOrigin());
    }
  }

  /** With a block list anchored at the origin, the viewer draws what the
      converter lists, in the same order, under the names with their block
      states cut off. */
  lemma ViewerMatchesBlockList(s: Schematic)
    requires s.Readable()
    requires PlainAir(s.palette)
    ensures var lines := GenerateBlockList(s, Origin).value;
      var drawn := ParseSchematic(s);
      && |drawn| == |lines|
      && forall i | 0 <= i < |drawn| :: drawn[i] == ViewBlock(lines[i].pos, StripState(lines[i].block))
  {
    var w, h, l, data, n := s.width, s.height, s.length, s.blockData, s.Voxels();
    var f, g := ListEntry(s, Origin), ViewEntry(s.palette, s.OffsetOrOrigin());
    var t := (v: Vec3, line: BlockLine) => ViewBlock(line.pos, StripState(line.block));
    forall v, index
      ensures f(v, index).Some? <==> g(v, index).Some?
      ensures f(v, index).Some? ==> g(v, index).value == t(v, f(v, index).value)
    {
      EntriesAgree(s, v, index);
    }
    assert ScanLength(s) == n;
    HitsTransfer(w, h, l, data, n, f, g, t);
  }

  /** A generated schematic is readable by both tools, and the converter's
      missing-offset fault cannot arise on it. */
  lemma GeneratedConverts(form: Form, anchor: Vec3)
    requires GenerateSchematic(form).Ok?
    ensures var g := GenerateSchematic(form).value;
      && g.Readable()
      && Convert(g, anchor).Ok?
      && ConvertAsWritten(g, anchor) == Convert(g, anchor)
  {
    ConvertAgreesWithAsWritten(GenerateSchematic(form).value, anchor);
  }

  /** A schematic filled with one block state: its palette holds `key` at
      index 0, every entry of `BlockData` is 0 and covers the box, and it
      sits at the origin. */
  predicate Uniform(g: Schematic, key: string) {
    && g.palette == map[key := 0]
    && g.Readable()
    && (forall k | 0 <= k < |g.blockData| :: g.blockData[k] == 0)
    && g.offset == Some(Origin)
  }

  /** The generator writes a schematic filled with the block type's state. */
  lemma GeneratedIsUniform(form: Form)
    requires GenerateSchematic(form).Ok?
    ensures Uniform(GenerateSchematic(form).value, PaletteKey(BlockType(form.block)))
  {
  }

  /** Every voxel of a uniform schematic resolves to its one key. */
  lemma UniformIndex(g: Schematic, key: string, v: Vec3)
    requires Uniform(g, key)
    requires InBounds(v, g.width, g.height, g.length)
    ensures 0 <= FlatIndex(v, g.width, g.length) < g.Voxels() <= |g.blockData|
    ensures Resolve(g.palette, g.blockData[FlatIndex(v, g.width, g.length)]) == Some(key)
  {
    FlatIndexBounds(v, g.width, g.height, g.length);
    ResolveInverts(g.palette, key);
  }

  /** The viewer draws a uniform schematic as the whole box filled with the
      key's block name, or as nothing when that name is air. */
  lemma UniformView(g: Schematic, key: string)
    requires Uniform(g, key)
    ensures var name := StripState(key);
      var drawn := ParseSchematic(g);
      && (forall b | b in drawn :: b.name == name && InBounds(b.pos, g.width, g.height, g.length))
      && (name == AIR_BLOCK ==> drawn == [])
      && (name != AIR_BLOCK ==> forall v | InBounds(v, g.width, g.height, g.length) :: ViewBlock(v, name) in drawn)
  {
    var name := StripState(key);
    var drawn := ParseSchematic(g);
    assert g.OffsetOrOrigin() == Origin;
    assert ScanLength(g) == g.Voxels();
    ViewerSound(g);
    forall i | 0 <= i < |drawn|
      ensures drawn[i].name == name && InBounds(drawn[i].pos, g.width, g.height, g.length)
    {
      var v := drawn[i].pos.Minus(Origin);
      assert v == drawn[i].pos;
      UniformIndex(g, key, v);
    }
    if |drawn| > 0 {
      assert drawn[0].name == name && drawn[0].name != AIR_BLOCK;
    }
    if name != AIR_BLOCK {
      forall v | InBounds(v, g.width, g.height, g.length)
        ensures ViewBlock(v, name) in drawn
      {
        UniformIndex(g, key, v);
        ViewerComplete(g, v);
        assert v.Plus(Origin) == v;
      }
    }
  }

  /** The converter lists every voxel of a uniform schematic whose key is a
      block state, each under that key, at anchor + position. */
  lemma UniformBlockList(g: Schematic, key: string, anchor: Vec3)
    requires Uniform(g, key)
    requires '[' in key
    ensures var lines := GenerateBlockList(g, anchor).value;
      && (forall i | 0 <= i < |lines| :: lines[i].block == key)
      && (forall v | InBounds(v, g.width, g.height, g.length) :: BlockLine(anchor.Plus(v), key) in lines)
  {
    assert '[' !in AIR_BLOCK;
    assert key != AIR_BLOCK && key != "";
    BlockListSpec(g, anchor);
    var lines := GenerateBlockList(g, anchor).value;
    forall i | 0 <= i < |lines|
      ensures lines[i].block == key
    {
      UniformIndex(g, key, Local(g, anchor, lines[i].pos));
    }
    forall v | InBounds(v, g.width, g.height, g.length)
      ensures BlockLine(anchor.Plus(v), key) in lines
    {
      UniformIndex(g, key, v);
      assert Absolute(g, anchor, v) == anchor.Plus(v);
    }
  }

  /** The viewer draws a generated schematic as the whole box filled with
      the block type's name, or as nothing when that name is air. */
  lemma GeneratedView(form: Form)
    requires GenerateSchematic(form).Ok?
    ensures var g := GenerateSchematic(form).value;
      var name := StripState(BlockType(form.block));
      var drawn := ParseSchematic(g);
      && (forall b | b in drawn :: b.name == name && InBounds(b.pos, g.width, g.height, g.length))
      && (name == AIR_BLOCK ==> drawn == [])
      && (name != AIR_BLOCK ==> forall v | InBounds(v, g.width, g.height, g.length) :: ViewBlock(v, name) in drawn)
  {
    GeneratedIsUniform(form);
    UniformView(GenerateSchematic(form).value, PaletteKey(BlockType(form.block)));
  }

  /** The converter lists every voxel of a generated schematic, each under
      the full palette key, at anchor + position. */
  lemma GeneratedBlockList(form: Form, anchor: Vec3)
    requires GenerateSchematic(form).Ok?
    ensures var g := GenerateSchematic(form).value;
      var key := PaletteKey(BlockType(form.block));
      var lines := GenerateBlockList(g, anchor).value;
      && (forall i | 0 <= i < |lines| :: lines[i].block == key)
      && (forall v | InBounds(v, g.width, g.height, g.length) :: BlockLine(anchor.Plus(v), key) in lines)
  {
    GeneratedIsUniform(form);
    UniformBlockList(GenerateSchematic(form).value, PaletteKey(BlockType(form.block)), anchor);
  }
}

=== FILE: results.dfy ===
/** Optional values and error-carrying results, used wherever the modelled
    code returns None, falls back to a default or raises. */
module Results {

  /** A value that may be absent, like a Python `dict.get` without default. */
  datatype Option<+T> = None | Some(value: T) {

    /** The value, or `default` when absent (Python's `d.get(k, default)`). */
    function GetOr(default: T): T {
      match this
      case Some(v) => v
      case None => default
    }
  }

  /** Either a computed value or the error the modelled code would raise. */
  datatype Result<+T, +E> = Ok(value: T) | Err(error: E)
}

=== FILE: schematic.dfy ===
/** The in-memory schematic record the tools read and write: dimensions,
    a palette from block-state identifiers to small indices, the flat
    block-index array, block entities, offset and metadata. Tags the source
    reads with `data.get(...)` or writes only sometimes are `Option`s. */
module Schematics {
  import opened Results
  import opened Grid

  const AIR_BLOCK: string := "minecraft:air"
  const COMMAND_BLOCK_STATE: string := "minecraft:command_block[conditional=false,facing=up]"
  const COMMAND_BLOCK_ID: string := "minecraft:command_block"
  /** The JSON text component every generated command block is named with. */
  const COMMAND_BLOCK_NAME: string := "{\"text\":\"@\"}"

  /** No two identifiers share an index, so the inverse lookup is a function. */
  ghost predicate Injective(p: map<string, int>) {
    forall a, b | a in p && b in p && a != b :: p[a] != p[b]
  }

  type Palette = p: map<string, int> | Injective(p) witness map[]

  /** Metadata is free-form; the modelled operations copy it whole or write
      integer entries. */
  type Metadata = map<string, int>

  /** A block entity as the modelled code writes one: a command block at a
      local position, with its command text and behaviour flags. */
  datatype BlockEntity = BlockEntity(
    id: string,
    pos: Vec3,
    command: string,
    customName: string,
    auto: int,
    conditionMet: int,
    powered: int,
    trackOutput: int,
    successCount: int,
    updateLastExecution: int,
    lastExecution: int,
    lastOutput: string)

  /** The flag set a command block must carry to be placed correctly: needs
      redstone, not yet triggered, unpowered, output tracked, no successes,
      records its last execution (at tick 0), empty last output. */
  predicate IsCommandBlock(e: BlockEntity) {
    && e.id == COMMAND_BLOCK_ID
    && e.customName == COMMAND_BLOCK_NAME
    && e.auto == 0
    && e.conditionMet == 0
    && e.powered == 0
    && e.trackOutput == 1
    && e.successCount == 0
    && e.updateLastExecution == 1
    && e.lastExecution == 0
    && e.lastOutput == ""
  }

  function CommandBlockAt(pos: Vec3, command: string): (e: BlockEntity)
    ensures IsCommandBlock(e) && e.pos == pos && e.command == command
  {
    BlockEntity(COMMAND_BLOCK_ID, pos, command, COMMAND_BLOCK_NAME, 0, 0, 0, 1, 0, 1, 0, "")
  }

  datatype Schematic = Schematic(
    version: Option<int>,
    dataVersion: Option<int>,
    width: int,
    height: int,
    length: int,
    paletteMax: Option<int>,
    palette: Palette,
    blockData: seq<int>,
    blockEntities: seq<BlockEntity>,
    offset: Option<Vec3>,
    metadata: Option<Metadata>)
  {
    /** The offset, or (0, 0, 0) when the tag is absent. */
    function OffsetOrOrigin(): Vec3 {
      offset.GetOr(Origin)
    }

    function Voxels(): nat {
      Volume(width, height, length)
    }

    /** Every voxel's index can be read: the triple loop never runs past the
        end of `blockData`. */
    predicate Readable() {
      Voxels() <= |blockData|
    }

    /** The palette index stored for an in-box voxel. */
    function IndexAt(v: Vec3): int
      requires InBounds(v, width, height, length) && Readable()
    {
      FlatIndexBounds(v, width, height, length);
      blockData[FlatIndex(v, width, length)]
    }
  }

  /** The identifier an index stands for: the inverted palette's `get`. */
  function Resolve(p: Palette, index: int): (r: Option<string>)
    ensures r.Some? <==> index in p.Values
    ensures r.Some? ==> r.value in p && p[r.value] == index
  {
    if index in p.Values then
      Some(var key :| key in p && p[key] == index; key)
    else None
  }

  /** Inverting the palette undoes it: an identifier's index resolves to
      that identifier. */
  lemma ResolveInverts(p: Palette, key: string)
    requires key in p
    ensures Resolve(p, p[key]) == Some(key)
  {
  }

  /** Length of Python's `[0] * (width * height * length)`: a negative
      count gives the empty list. */
  function ZerosLength(w: int, h: int, l: int): nat {
    Span(Mul(h, Mul(l, w)))
  }

  lemma ZerosCoverVoxels(w: int, h: int, l: int)
    ensures Volume(w, h, l) <= ZerosLength(w, h, l)
    ensures w > 0 && h > 0 && l > 0 ==> ZerosLength(w, h, l) == Volume(w, h, l)
  {
    VolumeOfBox(w, h, l);
  }
}

=== FILE: text.dfy ===
/** The string operations the schematic tools rely on: decimal formatting of
    coordinates (Python's `f"{n}"`), the integer and float parsing applied to
    form fields (Python's `int(s)` and `int(float(s))`), `s.split('[')[0]`,
    substring tests (`sub in s`) and `s.replace(old, new)`. */
module Text {
  import opened Results

  predicate IsDigit(c: char) {
    '0' <= c <= '9'
  }

  predicate AllDigits(s: string) {
    forall i | 0 <= i < |s| :: IsDigit(s[i])
  }

  function DigitChar(d: nat): (c: char)
    requires d < 10
    ensures IsDigit(c) && c as int - '0' as int == d
  {
    ('0' as int + d) as char
  }

  function DigitValue(c: char): nat
    requires IsDigit(c)
  {
    c as int - '0' as int
  }

  /** Decimal digits of `n`, most significant first, without leading zeros. */
  function NatToString(n: nat): (s: string)
    ensures 1 <= |s| && AllDigits(s)
    ensures |s| > 1 ==> s[0] != '0'
    decreases n
  {
    if n < 10 then [DigitChar(n)] else NatToString(n / 10) + [DigitChar(n % 10)]
  }

  /** The number a string of decimal digits denotes. */
  function DigitsValue(s: string): nat
    requires AllDigits(s)
  {
    if |s| == 0 then 0 else 10 * DigitsValue(s[..|s| - 1]) + DigitValue(s[|s| - 1])
  }

  lemma {:induction false} DigitsOfNat(n: nat)
    ensures DigitsValue(NatToString(n)) == n
    decreases n
  {
    if n >= 10 {
      var s := NatToString(n);
      assert s[..|s| - 1] == NatToString(n / 10);
      DigitsOfNat(n / 10);
    }
  }

  /** Python's decimal rendering of an integer: a '-' before the digits of a
      negative number, nothing before those of a non-negative one. */
  function IntToString(i: int): (s: string)
    ensures ' ' !in s && '[' !in s
    ensures 1 <= |s|
    ensures (i < 0) == (s[0] == '-')
    ensures var d := if i < 0 then s[1..] else s;
      1 <= |d| && AllDigits(d) && (d[0] == '0' ==> d == "0")
  {
    if i < 0 then "-" + NatToString(-i) else NatToString(i)
  }

  /** Python's `int(s)` on the plain ASCII form: an optional sign followed by
      at least one decimal digit; anything else is a ValueError (None). */
  function ParseInt(s: string): (r: Option<int>)
    ensures r.Some? <==>
      || (1 <= |s| && AllDigits(s))
      || (2 <= |s| && (s[0] == '-' || s[0] == '+') && AllDigits(s[1..]))
    ensures AllDigits(s) && 1 <= |s| ==> r == Some(DigitsValue(s))
    ensures r.Some? && s[0] == '+' ==> r.value == DigitsValue(s[1..])
    ensures r.Some? && s[0] == '-' ==> r.value == -(DigitsValue(s[1..]) as int)
  {
    if |s| == 0 then None
    else if s[0] == '-' || s[0] == '+' then
      var digits := s[1..];
      if |digits| == 0 || !AllDigits(digits) then None
      else if s[0] == '-' then Some(-(DigitsValue(digits) as int))
      else Some(DigitsValue(digits))
    else if AllDigits(s) then Some(DigitsValue(s))
    else None
  }

  /** The digits of a natural number read back as that number, with or
      without a leading '-'. */
  lemma NatToStringRoundTrip(n: nat)
    ensures ParseInt(NatToString(n)) == Some(n)
    ensures ParseInt("-" + NatToString(n)) == Some(-(n as int))
  {
    var digits := NatToString(n);
    DigitsOfNat(n);
    assert IsDigit(digits[0]);
    var s := "-" + digits;
    assert s[0] == '-' && s[1..] == digits;
  }

  /** Rendering an integer and parsing it back gives the integer again. */
  lemma IntToStringRoundTrip(i: int)
    ensures ParseInt(IntToString(i)) == Some(i)
  {
    if i < 0 {
      NatToStringRoundTrip(-i);
    } else {
      NatToStringRoundTrip(i);
    }
  }

  /** The smallest magnitude Python's `float()` rounds to infinity:
      2^1024 - 2^970, halfway between the largest binary64 value
      (2^1024 - 2^971) and 2^1024, where rounding to even goes up. As it is
      an integer, a decimal text overflows exactly when the magnitude of its
      integer part reaches it. */
  const FLOAT_OVERFLOW: nat := 179769313486231580793728971405303415079934132710037826936173778980444968292764750946649017977587207096330286416692887910946555547851940402630657488671505820681908902000708383676273854845817711531764475730270069855571366959622842914819860834936475292719074168444365510704342711559699508093042880177904174497792

  /** 2^53: every integer of at most this magnitude is a binary64 value. */
  const EXACT_FLOAT_LIMIT: nat := 9007199254740992

  /** The integer part of a decimal text whose `float()` is finite. */
  predicate FiniteFloat(n: int) {
    -(FLOAT_OVERFLOW as int) < n < FLOAT_OVERFLOW
  }

  /** The unsigned decimal form: digits with at most one '.', with at least
      one digit overall, read as the number its digits before '.' denote. */
  function UnsignedDecimal(body: string): (r: Option<nat>)
    ensures r.Some? ==> 1 <= |body|
  {
    var whole := TextBefore(body, '.');
    var fraction := if |whole| < |body| then body[|whole| + 1..] else "";
    if AllDigits(whole) && AllDigits(fraction) && 1 <= |whole| + |fraction| then Some(DigitsValue(whole))
    else None
  }

  /** `int(float(s))` on the plain decimal form: an optional sign, then the
      unsigned decimal form; the value is truncated toward zero, so only the
      digits before '.' count. The truncation is of the exact decimal value:
      binary64 rounding is not part of it, and overflow is decided by
      `FiniteFloat`. */
  function ParseTruncated(s: string): (r: Option<int>)
    ensures r.Some? ==> 1 <= |s|
    ensures r.Some? && s[0] == '-' ==> r.value <= 0
    ensures r.Some? && s[0] != '-' ==> r.value >= 0
  {
    var negative := 0 < |s| && s[0] == '-';
    var body := if 0 < |s| && (s[0] == '-' || s[0] == '+') then s[1..] else s;
    match UnsignedDecimal(body)
    case None => None
    case Some(n) => Some(if negative then -(n as int) else n)
  }

  /** The value `UnsignedDecimal` finds in `NatToString(m) + "." + fraction`. */
  lemma DecimalParts(m: nat, fraction: string)
    requires AllDigits(fraction)
    ensures var body := NatToString(m) + "." + fraction;
      IsDigit(body[0]) && UnsignedDecimal(body) == Some(m)
  {
    var digits := NatToString(m);
    var body := digits + "." + fraction;
    assert '.' !in digits by {
      forall i | 0 <= i < |digits| ensures digits[i] != '.' {
        assert IsDigit(digits[i]);
      }
    }
    assert body == digits + ['.'] + fraction;
    TextBeforeOf(digits, '.', fraction);
    assert body[|digits| + 1..] == fraction;
    DigitsOfNat(m);
  }

  /** A text starting with a digit has no sign: it reads as its unsigned
      value `n`. */
  lemma ParseTruncatedUnsigned(body: string, n: nat)
    requires 1 <= |body| && IsDigit(body[0]) && UnsignedDecimal(body) == Some(n)
    ensures ParseTruncated(body) == Some(n)
  {
  }

  /** A '-' before a text that starts with a digit negates its value `n`. */
  lemma ParseTruncatedNegated(body: string, n: nat)
    requires 1 <= |body| && IsDigit(body[0]) && UnsignedDecimal(body) == Some(n)
    ensures ParseTruncated("-" + body) == Some(-(n as int))
  {
  }

  /** The fraction is dropped: "2.7" reads as 2. */
  lemma ParseTruncatedDecimal(m: nat, fraction: string)
    requires AllDigits(fraction)
    ensures ParseTruncated(NatToString(m) + "." + fraction) == Some(m)
  {
    DecimalParts(m, fraction);
    ParseTruncatedUnsigned(NatToString(m) + "." + fraction, m);
  }

  /** The fraction is dropped after a '-' too, so truncation goes toward
      zero: "-2.7" reads as -2, not -3, and "-0.5" as 0. */
  lemma ParseTruncatedNegativeDecimal(m: nat, fraction: string)
    requires AllDigits(fraction)
    ensures ParseTruncated("-" + (NatToString(m) + "." + fraction)) == Some(-(m as int))
  {
    DecimalParts(m, fraction);
    ParseTruncatedNegated(NatToString(m) + "." + fraction, m);
  }

  /** The unsigned text `ParseTruncated` reads after an optional sign. */
  function UnsignedBody(s: string): (body: string)
    ensures |s| == 0 || (s[0] != '-' && s[0] != '+') ==> body == s
    ensures 0 < |s| && (s[0] == '-' || s[0] == '+') ==> body == s[1..]
  {
    if 0 < |s| && (s[0] == '-' || s[0] == '+') then s[1..] else s
  }

  lemma ParseTruncatedOfBody(s: string)
    ensures UnsignedDecimal(UnsignedBody(s)).None? ==> ParseTruncated(s).None?
  {
  }

  /** A character that is neither an ASCII digit nor '.' makes the unsigned
      form fail. */
  lemma UnsignedRefusesStray(body: string, k: nat)
    requires k < |body| && !IsDigit(body[k]) && body[k] != '.'
    ensures UnsignedDecimal(body).None?
  {
    var whole := TextBefore(body, '.');
    if k < |whole| {
      assert whole[k] == body[k];
    } else {
      assert |whole| < k && body[|whole|] == '.';
      var fraction := body[|whole| + 1..];
      assert fraction[k - |whole| - 1] == body[k];
    }
  }

  /** A second '.' makes the unsigned form fail. */
  lemma UnsignedRefusesTwoPoints(body: string, k1: nat, k2: nat)
    requires k1 < k2 < |body| && body[k1] == '.' && body[k2] == '.'
    ensures UnsignedDecimal(body).None?
  {
    var whole := TextBefore(body, '.');
    assert forall k | 0 <= k < |whole| :: whole[k] == body[k] && whole[k] != '.';
    var fraction := body[|whole| + 1..];
    assert fraction[k2 - |whole| - 1] == '.';
  }

  /** Without a digit the unsigned form fails. */
  lemma UnsignedRefusesNoDigit(body: string)
    requires forall k | 0 <= k < |body| :: !IsDigit(body[k])
    ensures UnsignedDecimal(body).None?
  {
    var whole := TextBefore(body, '.');
    if 1 <= |whole| {
      assert whole[0] == body[0];
    } else if |whole| < |body| {
      var fraction := body[|whole| + 1..];
      if 1 <= |fraction| {
        assert fraction[0] == body[|whole| + 1];
      }
    }
  }

  /** A character other than an ASCII digit, '.' and a sign in first place
      is refused: "abc", "1,5" and "1-2" are ValueErrors. */
  lemma ParseTruncatedRefusesStray(s: string, k: nat)
    requires k < |s| && !IsDigit(s[k]) && s[k] != '.'
    requires k == 0 ==> s[0] != '-' && s[0] != '+'
    ensures ParseTruncated(s).None?
  {
    var body := UnsignedBody(s);
    if body == s {
      UnsignedRefusesStray(body, k);
    } else {
      assert body[k - 1] == s[k];
      UnsignedRefusesStray(body, k - 1);
    }
    ParseTruncatedOfBody(s);
  }

  /** `float()` refuses a second '.': "1.2.3" is a ValueError. */
  lemma ParseTruncatedRefusesTwoPoints(s: string, k1: nat, k2: nat)
    requires k1 < k2 < |s| && s[k1] == '.' && s[k2] == '.'
    ensures ParseTruncated(s).None?
  {
    var body := UnsignedBody(s);
    if body == s {
      UnsignedRefusesTwoPoints(body, k1, k2);
    } else {
      assert s[0] != '.';
      assert body[k1 - 1] == s[k1] && body[k2 - 1] == s[k2];
      UnsignedRefusesTwoPoints(body, k1 - 1, k2 - 1);
    }
    ParseTruncatedOfBody(s);
  }

  /** `float()` refuses a text without a digit: "", "-", "." and "+." are
      ValueErrors. */
  lemma ParseTruncatedRefusesNoDigit(s: string)
    requires forall k | 0 <= k < |s| :: !IsDigit(s[k])
    ensures ParseTruncated(s).None?
  {
    var body := UnsignedBody(s);
    forall k | 0 <= k < |body|
      ensures !IsDigit(body[k])
    {
      if body != s {
        assert body[k] == s[k + 1];
      }
    }
    UnsignedRefusesNoDigit(body);
    ParseTruncatedOfBody(s);
  }

  /** `UnsignedDecimal` reads the digits before the '.' of
      `whole + "." + fraction`. */
  lemma UnsignedDecimalParts(whole: string, fraction: string)
    requires AllDigits(whole) && AllDigits(fraction) && 1 <= |whole| + |fraction|
    ensures var body := whole + "." + fraction;
      (body[0] == '.' || IsDigit(body[0])) && UnsignedDecimal(body) == Some(DigitsValue(whole))
  {
    var body := whole + "." + fraction;
    assert '.' !in whole by {
      forall k | 0 <= k < |whole| ensures whole[k] != '.' {
        assert IsDigit(whole[k]);
      }
    }
    assert body == whole + ['.'] + fraction;
    TextBeforeOf(whole, '.', fraction);
    assert body[|whole| + 1..] == fraction;
  }

  /** A sign before an unsigned text of value `n`: '-' negates, '+' and no
      sign keep `n`. */
  lemma ParseTruncatedSigned(sign: string, body: string, n: nat)
    requires sign == "" || sign == "-" || sign == "+"
    requires 1 <= |body| && body[0] != '-' && body[0] != '+' && UnsignedDecimal(body) == Some(n)
    ensures ParseTruncated(sign + body) == Some(if sign == "-" then -(n as int) else n)
  {
    if sign == "" {
      assert sign + body == body;
    } else {
      var s := sign + body;
      assert s[0] == sign[0] && s[1..] == body;
    }
  }

  /** Every text of the decimal form is accepted: an optional sign, digits,
      '.', digits, with a digit on at least one side (".5" and "5." too),
      read as the number `n` the digits before '.' denote, under the sign. */
  lemma ParseTruncatedAccepts(sign: string, whole: string, fraction: string, n: nat)
    requires sign == "" || sign == "-" || sign == "+"
    requires AllDigits(whole) && AllDigits(fraction) && 1 <= |whole| + |fraction|
    requires n == DigitsValue(whole)
    ensures ParseTruncated(sign + (whole + "." + fraction)) == Some(if sign == "-" then -(n as int) else n)
  {
    UnsignedDecimalParts(whole, fraction);
    ParseTruncatedSigned(sign, whole + "." + fraction, n);
  }

  /** Every string `int(s)` accepts is in the decimal form, and its exact
      truncation is `int(s)`'s value. */
  lemma ParseTruncatedExtendsParseInt(s: string)
    requires ParseInt(s).Some?
    ensures ParseTruncated(s) == ParseInt(s)
  {
    var body := if 0 < |s| && (s[0] == '-' || s[0] == '+') then s[1..] else s;
    assert AllDigits(body);
    assert forall i | 0 <= i < |body| :: body[i] != '.' by {
      forall i | 0 <= i < |body| ensures body[i] != '.' {
        assert IsDigit(body[i]);
      }
    }
    assert TextBefore(body, '.') == body;
  }

  /** The text before the first `sep`, or all of `s` when `sep` does not
      occur: Python's `s.split(sep)[0]`. */
  function TextBefore(s: string, sep: char): (r: string)
    ensures sep !in r
    ensures r <= s
    ensures |r| < |s| ==> s[|r|] == sep
  {
    if |s| == 0 || s[0] == sep then "" else [s[0]] + TextBefore(s[1..], sep)
  }

  /** The first field of `head + [sep] + rest` is `head` when `head` holds
      no `sep`. */
  lemma {:induction false} TextBeforeOf(head: string, sep: char, rest: string)
    requires sep !in head
    ensures TextBefore(head + [sep] + rest, sep) == head
    decreases |head|
  {
    if |head| > 0 {
      assert (head + [sep] + rest)[1..] == head[1..] + [sep] + rest;
      TextBeforeOf(head[1..], sep, rest);
    }
  }

  /** A string without `sep` is its own first field. */
  lemma TextBeforeAbsent(s: string, sep: char)
    requires sep !in s
    ensures TextBefore(s, sep) == s
  {
  }

  /** The block name of a block state: `"minecraft:oak_log[axis=y]"` names
      `"minecraft:oak_log"`. */
  function StripState(state: string): (name: string)
    ensures '[' !in name && name <= state
    ensures '[' !in state ==> name == state
    ensures |name| < |state| ==> state[|name|] == '['
  {
    TextBefore(state, '[')
  }

  predicate OccursAt(s: string, pat: string, i: int) {
    0 <= i && i + |pat| <= |s| && s[i..i + |pat|] == pat
  }

  /** Python's `pat in s`. */
  function Contains(s: string, pat: string): (b: bool)
    ensures b <==> exists i :: OccursAt(s, pat, i)
    decreases |s|
  {
    if |s| < |pat| then false
    else if s[..|pat|] == pat then
      assert OccursAt(s, pat, 0);
      true
    else
      var b := Contains(s[1..], pat);
      if b then
        var i :| OccursAt(s[1..], pat, i);
        assert OccursAt(s, pat, i + 1) by {
          assert s[i + 1..i + 1 + |pat|] == s[1..][i..i + |pat|];
        }
        true
      else
        assert forall i | OccursAt(s, pat, i) :: OccursAt(s[1..], pat, i - 1) by {
          forall i | OccursAt(s, pat, i)
            ensures OccursAt(s[1..], pat, i - 1)
          {
            assert i != 0;
            assert s[1..][i - 1..i - 1 + |pat|] == s[i..i + |pat|];
          }
        }
        false
  }

  /** Python's `s.replace(pat, rep)`: occurrences are found left to right and
      do not overlap. */
  function Replace(s: string, pat: string, rep: string): (r: string)
    requires 1 <= |pat|
    ensures !Contains(s, pat) ==> r == s
    decreases |s|
  {
    if |s| < |pat| then s
    else if s[..|pat|] == pat then
      assert OccursAt(s, pat, 0);
      rep + Replace(s[|pat|..], pat, rep)
    else
      var tail := Replace(s[1..], pat, rep);
      assert !Contains(s, pat) ==> !Contains(s[1..], pat) by {
        if Contains(s[1..], pat) {
          var i :| OccursAt(s[1..], pat, i);
          assert s[i + 1..i + 1 + |pat|] == s[1..][i..i + |pat|];
          assert OccursAt(s, pat, i + 1);
        }
      }
      [s[0]] + tail
  }

  /** A prefix that never holds the pattern's first character passes
      through the replacement unchanged. */
  lemma {:induction false} ReplacePlainPrefix(a: string, b: string, pat: string, rep: string)
    requires 1 <= |pat| && pat[0] !in a
    ensures Replace(a + b, pat, rep) == a + Replace(b, pat, rep)
    decreases |a|
  {
    if |a| > 0 {
      var s := a + b;
      assert s[0] == a[0];
      assert s[1..] == a[1..] + b;
      ReplacePlainPrefix(a[1..], b, pat, rep);
      if |s| >= |pat| {
        assert a[0] in a;
        assert s[..|pat|] != pat by {
          assert s[..|pat|][0] != pat[0];
        }
        assert Replace(s, pat, rep) == [s[0]] + Replace(s[1..], pat, rep);
        assert [a[0]] + a[1..] == a;
      } else {
        assert |b| < |pat|;
      }
    } else {
      assert a + b == b;
    }
  }

  /** An occurrence at 0 is replaced first. */
  lemma ReplaceAtStart(s: string, pat: string, rep: string)
    requires 1 <= |pat| && OccursAt(s, pat, 0)
    ensures Replace(s, pat, rep) == rep + Replace(s[|pat|..], pat, rep)
  {
    assert s[..|pat|] == pat;
  }

  /** Without an occurrence at 0 the first character is kept. */
  lemma ReplacePastStart(s: string, pat: string, rep: string)
    requires 1 <= |pat| <= |s| && !OccursAt(s, pat, 0)
    ensures Replace(s, pat, rep) == [s[0]] + Replace(s[1..], pat, rep)
  {
    assert s[..|pat|] != pat;
  }

  /** Occurrences in `s[1..]` are those of `s` one place to the left. */
  lemma OccursShift(s: string, pat: string, j: nat)
    requires 1 <= |s|
    ensures OccursAt(s[1..], pat, j) <==> OccursAt(s, pat, j + 1)
  {
    if j + 1 + |pat| <= |s| {
      assert s[1..][j..j + |pat|] == s[j + 1..j + 1 + |pat|];
    }
  }

  /** The text before the first position where the pattern starts passes
      through the replacement unchanged. */
  lemma {:induction false} ReplaceKeptPrefix(s: string, pat: string, rep: string, i: nat)
    requires 1 <= |pat| && i <= |s|
    requires forall j | 0 <= j < i :: !OccursAt(s, pat, j)
    ensures Replace(s, pat, rep) == s[..i] + Replace(s[i..], pat, rep)
    decreases i
  {
    if i > 0 {
      var t := s[1..];
      forall j | 0 <= j < i - 1
        ensures !OccursAt(t, pat, j)
      {
        OccursShift(s, pat, j);
      }
      ReplaceKeptPrefix(t, pat, rep, i - 1);
      assert t[i - 1..] == s[i..];
      var tail := Replace(s[i..], pat, rep);
      if |pat| <= |s| {
        ReplacePastStart(s, pat, rep);
      }
      ConsSlice(s, i);
      ConcatAssociates([s[0]], t[..i - 1], tail);
    }
  }

  /** The leftmost occurrence is the first one replaced: the text before
      it is kept, the occurrence becomes `rep`, and the rest is replaced in
      turn. With the no-occurrence clause of `Replace` this determines
      `Replace` on every input. */
  lemma ReplaceFirst(s: string, pat: string, rep: string, i: nat)
    requires 1 <= |pat| && OccursAt(s, pat, i)
    requires forall j | 0 <= j < i :: !OccursAt(s, pat, j)
    ensures Replace(s, pat, rep) == s[..i] + rep + Replace(s[i + |pat|..], pat, rep)
  {
    var b := s[i..];
    var tail := Replace(s[i + |pat|..], pat, rep);
    assert Replace(b, pat, rep) == rep + tail by {
      assert b[..|pat|] == s[i..i + |pat|];
      ReplaceAtStart(b, pat, rep);
      assert b[|pat|..] == s[i + |pat|..];
    }
    ReplaceKeptPrefix(s, pat, rep, i);
    ConcatAssociates(s[..i], rep, tail);
  }

  lemma ConsSlice(s: string, i: nat)
    requires 1 <= i <= |s|
    ensures [s[0]] + s[1..][..i - 1] == s[..i]
  {
  }

  lemma ConcatAssociates(a: string, b: string, c: string)
    ensures a + (b + c) == a + b + c
  {
  }

  /** `ReplaceFirst` at whichever position is the leftmost occurrence. */
  lemma ReplaceEachFirst(s: string, pat: string, rep: string)
    requires 1 <= |pat|
    ensures forall i | OccursAt(s, pat, i) && (forall j | 0 <= j < i :: !OccursAt(s, pat, j)) ::
      Replace(s, pat, rep) == s[..i] + rep + Replace(s[i + |pat|..], pat, rep)
  {
    forall i | OccursAt(s, pat, i) && (forall j | 0 <= j < i :: !OccursAt(s, pat, j))
      ensures Replace(s, pat, rep) == s[..i] + rep + Replace(s[i + |pat|..], pat, rep)
    {
      ReplaceFirst(s, pat, rep, i);
    }
  }

  /** In `a + "__" + b` where `a` holds no "__" and does not end in '_', the
      pair is the leftmost "__": it becomes ':' and the rest is replaced in
      turn ("my_mod__ruby" becomes "my_mod:ruby", "a___b" becomes "a:_b"). */
  lemma ReplaceAtPair(a: string, b: string)
    requires !Contains(a, "__") && (a == "" || a[|a| - 1] != '_')
    ensures Replace(a + "__" + b, "__", ":") == a + ":" + Replace(b, "__", ":")
  {
    var s := a + "__" + b;
    assert OccursAt(s, "__", |a|) by {
      assert s[|a|..|a| + 2] == "__";
    }
    forall j | 0 <= j < |a|
      ensures !OccursAt(s, "__", j)
    {
      if j + 1 < |a| {
        assert !OccursAt(a, "__", j);
        assert s[j..j + 2] == a[j..j + 2];
      } else {
        assert s[j] == a[|a| - 1];
        assert s[j..j + 2][0] == s[j];
      }
    }
    ReplaceFirst(s, "__", ":", |a|);
    assert s[..|a|] == a && s[|a| + 2..] == b;
  }

  /** No two underscores stand next to each other in `s`. */
  predicate NoDoubleUnderscore(s: string) {
    forall i | 0 <= i < |s| - 1 :: !(s[i] == '_' && s[i + 1] == '_')
  }

  /** A string with a single underscore holds no "__". */
  lemma SingleUnderscore(a: string, b: string)
    requires '_' !in a && '_' !in b
    ensures !Contains(a + "_" + b, "__")
  {
    var s := a + "_" + b;
    forall i
      ensures !OccursAt(s, "__", i)
    {
      if 0 <= i && i + 2 <= |s| {
        assert s[i..i + 2] == [s[i], s[i + 1]];
        if i < |a| {
          assert s[i] == a[i];
        } else {
          assert s[i + 1] == b[i - |a|];
        }
      }
    }
  }

  lemma {:induction false} ReplaceKeepsFirst(s: string)
    requires 1 <= |s| && s[0] != '_'
    ensures |Replace(s, "__", ":")| >= 1 && Replace(s, "__", ":")[0] == s[0]
  {
  }

  /** After replacing every "__" by ":" no "__" is left, and only the empty
      string becomes empty. */
  lemma {:induction false} ReplaceDoubleUnderscore(s: string)
    ensures var r := Replace(s, "__", ":");
      NoDoubleUnderscore(r) && !Contains(r, "__") && (r == "" <==> s == "")
    decreases |s|
  {
    var r := Replace(s, "__", ":");
    if |s| < 2 {
    } else if s[..2] == "__" {
      ReplaceDoubleUnderscore(s[2..]);
      var t := Replace(s[2..], "__", ":");
      assert r == ":" + t;
      assert NoDoubleUnderscore(r) by {
        forall i | 0 <= i < |r| - 1
          ensures !(r[i] == '_' && r[i + 1] == '_')
        {
          if i > 0 {
            assert r[i] == t[i - 1] && r[i + 1] == t[i];
          }
        }
      }
    } else {
      ReplaceDoubleUnderscore(s[1..]);
      var t := Replace(s[1..], "__", ":");
      assert r == [s[0]] + t;
      assert NoDoubleUnderscore(r) by {
        forall i | 0 <= i < |r| - 1
          ensures !(r[i] == '_' && r[i + 1] == '_')
        {
          if i > 0 {
            assert r[i] == t[i - 1] && r[i + 1] == t[i];
          } else if s[0] == '_' {
            assert s[1] != '_';
            ReplaceKeepsFirst(s[1..]);
          }
        }
      }
    }
    forall i
      ensures !OccursAt(r, "__", i)
    {
      if 0 <= i && i + 2 <= |r| {
        assert r[i..i + 2] == [r[i], r[i + 1]];
      }
    }
  }
}

=== FILE: viewer.dfy ===
/** The viewer's schematic scan: every voxel whose block name is not air,
    with its position shifted by the schematic's offset and its identifier
    stripped of the block state. A short `BlockData` ends the scan early,
    keeping the blocks found so far. */
module Viewer {
  import opened Results
  import opened Grid
  import opened Text
  import opened Schematics

  /** One block the viewer draws: position and block name. */
  datatype ViewBlock = ViewBlock(pos: Vec3, name: string)

  /** The name an index shows as: the identifier holding that index with
      its state cut off at the first '[', or "minecraft:air" when no
      identifier holds it. */
  function BlockName(p: Palette, index: int): (name: string)
    ensures '[' !in name
    ensures index !in p.Values ==> name == AIR_BLOCK
    ensures index in p.Values ==> name <= Resolve(p, index).value
    ensures index in p.Values && '[' !in Resolve(p, index).value ==> name == Resolve(p, index).value
    ensures index in p.Values && |name| < |Resolve(p, index).value| ==> Resolve(p, index).value[|name|] == '['
  {
    match Resolve(p, index)
    case None => AIR_BLOCK
    case Some(id) => StripState(id)
  }

  /** The viewer's treatment of one voxel: drawn iff its name is not
      "minecraft:air", at the voxel shifted by the offset. */
  function ViewEntry(p: Palette, offset: Vec3): (Vec3, int) -> Option<ViewBlock> {
    (v: Vec3, index: int) =>
      var name := BlockName(p, index);
      if name != AIR_BLOCK then Some(ViewBlock(v.Plus(offset), name)) else None
  }

  /** How many voxels the scan visits before it stops: all of them, or the
      first `|BlockData|` when the array is short and the next read raises. */
  function ScanLength(s: Schematic): (n: nat)
    ensures n <= s.Voxels() && n <= |s.blockData|
    ensures n == s.Voxels() || n == |s.blockData|
    ensures s.Readable() <==> n == s.Voxels()
  {
    if s.Voxels() <= |s.blockData| then s.Voxels() else |s.blockData|
  }

  /** `parse_schematic` once the file is loaded: the drawn blocks in Y→Z→X
      order. */
  function ParseSchematic(s: Schematic): (r: seq<ViewBlock>)
    ensures |r| <= ScanLength(s)
  {
    Values(Hits(s.width, s.height, s.length, s.blockData, ScanLength(s), ViewEntry(s.palette, s.OffsetOrOrigin())))
  }

  /** The `i`-th drawn block comes from a voxel of the box read inside
      `BlockData`, at that voxel plus the offset, under that voxel's name. */
  lemma DrawnFrom(s: Schematic, i: nat)
    requires i < |ParseSchematic(s)|
    ensures var b := ParseSchematic(s)[i];
      var v := b.pos.Minus(s.OffsetOrOrigin());
      && v == Hits(s.width, s.height, s.length, s.blockData, ScanLength(s), ViewEntry(s.palette, s.OffsetOrOrigin()))[i].at
      && InBounds(v, s.width, s.height, s.length)
      && 0 <= FlatIndex(v, s.width, s.length) < |s.blockData|
      && b.name == BlockName(s.palette, s.blockData[FlatIndex(v, s.width, s.length)])
      && b.name != AIR_BLOCK
  {
    var w, h, l, data, n := s.width, s.height, s.length, s.blockData, ScanLength(s);
    var offset := s.OffsetOrOrigin();
    var f := ViewEntry(s.palette, offset);
    var hits := Hits(w, h, l, data, n, f);
    HitAt(w, h, l, data, n, f, i);
    var at := hits[i].at;
    var name := BlockName(s.palette, data[FlatIndex(at, w, l)]);
    assert f(at, data[FlatIndex(at, w, l)]) == if name != AIR_BLOCK then Some(ViewBlock(at.Plus(offset), name)) else None;
    assert hits[i].value == ViewBlock(at.Plus(offset), name);
    assert ParseSchematic(s)[i] == hits[i].value;
    assert at.Plus(offset).Minus(offset) == at;
  }

  /** Every drawn block comes from a voxel of the box read inside
      `BlockData`, at that voxel plus the offset, under that voxel's name,
      which is neither air nor carries a block state. */
  lemma ViewerSound(s: Schematic)
    ensures var r := ParseSchematic(s);
      forall i | 0 <= i < |r| ::
        var v := r[i].pos.Minus(s.OffsetOrOrigin());
        && InBounds(v, s.width, s.height, s.length)
        && 0 <= FlatIndex(v, s.width, s.length) < |s.blockData|
        && r[i].name == BlockName(s.palette, s.blockData[FlatIndex(v, s.width, s.length)])
        && r[i].name != AIR_BLOCK
        && '[' !in r[i].name
  {
    forall i | 0 <= i < |ParseSchematic(s)| {
      DrawnFrom(s, i);
    }
  }

  /** Drawn blocks come in strictly increasing (y, z, x) order, so no
      position is drawn twice. */
  lemma ViewerOrdered(s: Schematic)
    ensures var r := ParseSchematic(s);
      forall i, j | 0 <= i < j < |r| :: LexLess(r[i].pos, r[j].pos)
  {
    var w, h, l, data, n := s.width, s.height, s.length, s.blockData, ScanLength(s);
    var f := ViewEntry(s.palette, s.OffsetOrOrigin());
    HitsOrdered(w, h, l, data, n, f);
    var hits := Hits(w, h, l, data, n, f);
    var r := ParseSchematic(s);
    forall i, j | 0 <= i < j < |r|
      ensures LexLess(r[i].pos, r[j].pos)
    {
      DrawnFrom(s, i);
      DrawnFrom(s, j);
      assert LexLess(hits[i].at, hits[j].at);
    }
  }

  /** Every voxel the scan reaches whose name is not air is drawn. */
  lemma ViewerComplete(s: Schematic, v: Vec3)
    requires InBounds(v, s.width, s.height, s.length)
    requires 0 <= FlatIndex(v, s.width, s.length) < ScanLength(s)
    requires BlockName(s.palette, s.blockData[FlatIndex(v, s.width, s.length)]) != AIR_BLOCK
    ensures ViewBlock(v.Plus(s.OffsetOrOrigin()), BlockName(s.palette, s.blockData[FlatIndex(v, s.width, s.length)])) in ParseSchematic(s)
  {
    var w, h, l, data, n, f := s.width, s.height, s.length, s.blockData, ScanLength(s), ViewEntry(s.palette, s.OffsetOrOrigin());
    var hits := Hits(w, h, l, data, n, f);
    HitsComplete(w, h, l, data, n, f, v);
    var i :| 0 <= i < |hits| && hits[i] == Hit(v, f(v, data[FlatIndex(v, w, l)]).value);
    assert ParseSchematic(s)[i] == hits[i].value;
  }

  /** A state whose block name is air is not drawn, even when its full
      identifier carries a block state. */
  lemma AirWithStateIsHidden(p: Palette, index: int, state: string)
    requires index in p.Values
    requires Resolve(p, index).value == AIR_BLOCK + "[" + state
    ensures BlockName(p, index) == AIR_BLOCK
    ensures forall offset, v :: ViewEntry(p, offset)(v, index).None?
  {
    TextBeforeOf(AIR_BLOCK, '[', state);
  }

  /** Appending entries to `BlockData` only extends what is drawn: the
      blocks found before the scan stopped stay, in order, in front. */
  lemma ViewerKeepsPrefix(s: Schematic, more: seq<int>)
    ensures ParseSchematic(s) <= ParseSchematic(s.(blockData := s.blockData + more))
  {
    var s' := s.(blockData := s.blockData + more);
    var w, h, l, f := s.width, s.height, s.length, ViewEntry(s.palette, s.OffsetOrOrigin());
    var m, n := ScanLength(s), ScanLength(s');
    assert (s.blockData + more)[..m] == s.blockData[..m];
    HitsReadPrefix(w, h, l, s.blockData, s'.blockData, m, f);
    HitsPrefix(w, h, l, s'.blockData, m, n, f);
    var a, b := Hits(w, h, l, s.blockData, m, f), Hits(w, h, l, s'.blockData, n, f);
    assert Values(a) == Values(b)[..|a|];
  }

  /** The blocks drawn by the first `k` visits. */
  function DrawnBefore(s: Schematic, k: nat): seq<ViewBlock>
    requires k <= s.Voxels() && k <= |s.blockData|
  {
    Values(Hits(s.width, s.height, s.length, s.blockData, k, ViewEntry(s.palette, s.OffsetOrOrigin())))
  }

  /** How many voxels the loops have visited when they reach row `z` of
      layer `y`. */
  function RowStart(y: int, z: int, w: int, l: int): int {
    Mul(y, Mul(Span(l), Span(w))) + Mul(z, Span(w))
  }

  /** Visiting voxel `v` after every voxel before it draws at most `v`,
      under its name, shifted by the offset. */
  lemma DrawnStep(s: Schematic, v: Vec3)
    requires InBounds(v, s.width, s.height, s.length)
    requires 0 <= FlatIndex(v, s.width, s.length) < |s.blockData|
    ensures var k := FlatIndex(v, s.width, s.length);
      var name := BlockName(s.palette, s.blockData[k]);
      && 0 <= k < s.Voxels()
      && DrawnBefore(s, k + 1) ==
         DrawnBefore(s, k) + (if name != AIR_BLOCK then [ViewBlock(v.Plus(s.OffsetOrOrigin()), name)] else [])
  {
    ValuesStepAt(s.width, s.height, s.length, s.blockData, ViewEntry(s.palette, s.OffsetOrOrigin()), v);
  }

  /** After `k` visits, `drawn` is what they drew. */
  predicate Scanned(s: Schematic, k: int, drawn: seq<ViewBlock>) {
    0 <= k <= s.Voxels() && k <= |s.blockData| && drawn == DrawnBefore(s, k)
  }

  /** One visit of the innermost loop keeps `Scanned`: voxel `v`, visited
      after every voxel before it, is drawn when its name is not air. */
  lemma ScanStep(s: Schematic, v: Vec3, drawn: seq<ViewBlock>)
    requires InBounds(v, s.width, s.height, s.length)
    requires FlatIndex(v, s.width, s.length) < |s.blockData|
    requires Scanned(s, FlatIndex(v, s.width, s.length), drawn)
    ensures var name := BlockName(s.palette, s.blockData[FlatIndex(v, s.width, s.length)]);
      Scanned(s, FlatIndex(v, s.width, s.length) + 1,
        drawn + if name != AIR_BLOCK then [ViewBlock(v.Plus(s.OffsetOrOrigin()), name)] else [])
  {
    FlatIndexBounds(v, s.width, s.height, s.length);
    DrawnStep(s, v);
  }

  /** The innermost loop of `parse_schematic`, over X in row `z` of layer
      `y`: the flat index is computed from the coordinates, and a read past
      the end of `BlockData` stops the scan with what was drawn so far. */
  method ScanRow(s: Schematic, y: int, z: int, blocks: seq<ViewBlock>) returns (drawn: seq<ViewBlock>, stopped: bool)
    requires 0 <= y < s.height && 0 <= z < s.length
    requires Scanned(s, RowStart(y, z, s.width, s.length), blocks)
    ensures stopped ==> |s.blockData| < s.Voxels() && drawn == DrawnBefore(s, |s.blockData|)
    ensures !stopped ==> Scanned(s, RowStart(y, z, s.width, s.length) + Span(s.width), drawn)
  {
    var w, h, l, data := s.width, s.height, s.length, s.blockData;
    var offset := s.OffsetOrOrigin();
    drawn, stopped := blocks, false;
    ghost var k := RowStart(y, z, w, l);
    var x := 0;
    while x < w
      invariant 0 <= x <= Span(w)
      invariant k == RowStart(y, z, w, l) + x
      invariant Scanned(s, k, drawn)
    {
      var v := Vec3(x, y, z);
      var index := FlatIndex(v, w, l);
      FlatIndexBounds(v, w, h, l);
      assert index == k;
      if index >= |data| {
        return drawn, true;
      }
      var name := BlockName(s.palette, data[index]);
      ScanStep(s, v, drawn);
      drawn := drawn + if name != AIR_BLOCK then [ViewBlock(v.Plus(offset), name)] else [];
      k := k + 1;
      x := x + 1;
    }
  }

  /** The middle loop, over Z in layer `y`. */
  method ScanLayer(s: Schematic, y: int, blocks: seq<ViewBlock>) returns (drawn: seq<ViewBlock>, stopped: bool)
    requires 0 <= y < s.height
    requires Scanned(s, RowStart(y, 0, s.width, s.length), blocks)
    ensures stopped ==> |s.blockData| < s.Voxels() && drawn == DrawnBefore(s, |s.blockData|)
    ensures !stopped ==> Scanned(s, RowStart(y + 1, 0, s.width, s.length), drawn)
  {
    var l := s.length;
    drawn, stopped := blocks, false;
    var z := 0;
    while z < l
      invariant 0 <= z <= Span(l)
      invariant Scanned(s, RowStart(y, z, s.width, l), drawn)
    {
      drawn, stopped := ScanRow(s, y, z, drawn);
      if stopped {
        return;
      }
      z := z + 1;
    }
  }

  /** `parse_schematic`'s loops as written: Y outermost, then Z, then X. A
      read past the end of `BlockData` ends the scan, and the blocks
      collected before it are what the viewer gets. */
  method ScanSchematic(s: Schematic) returns (blocks: seq<ViewBlock>)
    ensures blocks == ParseSchematic(s)
  {
    var h := s.height;
    blocks := [];
    var y := 0;
    while y < h
      invariant 0 <= y <= Span(h)
      invariant Scanned(s, RowStart(y, 0, s.width, s.length), blocks)
    {
      var stopped;
      blocks, stopped := ScanLayer(s, y, blocks);
      if stopped {
        return;
      }
      y := y + 1;
    }
    assert y == Span(h);
  }
}
